=== FILE: README.md ===
# Gym tracker: form scoring, rep counting and workout bookkeeping in Dafny

This project is a Dafny model of the gym tracker's real-time exercise coach, together with the
data transformations around workouts.

The exercise coach has four parts:

- **ExerciseAnalyzer.** There are four analyzers: push-up, squat, dumbbell press and deadlift.
  - Each one reads a 17-keypoint PoseNet frame.
  - Each one rejects the frame when fewer than six of the eight critical keypoints are reliable.
  - Otherwise it runs a fixed list of threshold rules. Every rule that fires subtracts an integer
    weight from 100 and pushes one mistake.
  - It reports the clamped score, a status band, a phase and the state handed to the next frame.
- **Dispatch and rep counter.** AdvancedAICoach maps an exercise name to an analyzer by substring
  matching. A per-frame loop keeps the last phase and counts a repetition on three phase edges.
- **Geometry.** Angles and distances are computed through `Math.atan2` and `Math.sqrt`. The model
  passes these in as an uninterpreted `Oracle`, and assumes only their ranges.
- **Deadlift status.** The deadlift analyzer is modelled twice: as written and as corrected (see
  "Findings"). The coach calls the analyzer as written, as the program does. The corrected one
  only serves to state the finding.

The data transformations around workouts are:

- the `workoutReducer` of the session context, over every action, plus the totals `endWorkout`
  sends
- the save hooks of the Workout and Routine documents
- the pure helpers of `helpers.js`: formatting, volume, one-rep max, `sortBy`, `groupBy`,
  validators and chart colours

Modules follow the source files:

| module | models |
|---|---|
| `Wrappers` | `Option`/`Result`, `Math.round`, JavaScript's `%` |
| `Text` | `toLowerCase`, `includes`, `trim`, `toString`, `padStart` on `seq<char>` |
| `Geometry` | `calculateAngle`, `calculateDistance` |
| `Scoring` | result record, mistakes and their weights, status bands, quality gate |
| `PushUp`, `Squat`, `Press`, `Deadlift` | the four analyzers |
| `Coach` | dispatch, frame loop, start, stop and reset |
| `Format`, `Helpers`, `Collections` | `helpers.js` |
| `Session` | `WorkoutContext.js` |
| `Workouts`, `Routines` | the Workout and Routine save hooks |

Two behaviours of the code look unintended and are modelled as written:

- The deadlift's `error` status for a rounded back is overwritten by the score bands (see
  "Findings").
- The quality gate's comment names elbows and wrists. The indices it tests (13-16) are the knees
  and ankles, and the model tests those indices.

The coach keeps no session-wide best or average score.

## Model

| member | source | states |
|---|---|---|
| Geometry.Angle | frontend/src/components/ai-coach/ExerciseAnalyzer.js:5-13 | The angle at the middle point always lies in [0, 180] when `atan2` lies in [-PI, PI]. |
| Geometry.DegreesFolded | frontend/src/components/ai-coach/ExerciseAnalyzer.js:8-11 | The degrees are `abs(radians)*180/PI`, or 360 minus that when it exceeds 180. Either way the result lies in [0, 180]. |
| Geometry.AngleSymmetric | frontend/src/components/ai-coach/ExerciseAnalyzer.js:5-13 | Swapping the two outer points gives the same angle. |
| Geometry.Distance | frontend/src/components/ai-coach/ExerciseAnalyzer.js:16-18 | The distance is never negative. |
| Geometry.DistanceSymmetric | frontend/src/components/ai-coach/ExerciseAnalyzer.js:16-18 | The distance from a to b equals the distance from b to a. |
| Scoring.CountReliable | frontend/src/components/ai-coach/ExerciseAnalyzer.js:25-30 | At most one count per index. Every index counts exactly when every listed keypoint is present with a score above 0.5. |
| Scoring.PoseQuality | frontend/src/components/ai-coach/ExerciseAnalyzer.js:21-33 | Quality lies in [0, 1]. It is 1 exactly when all eight critical keypoints are reliable. |
| Scoring.GateRejectsIffFewerThanSix | frontend/src/components/ai-coach/ExerciseAnalyzer.js:21-39 | `quality < 0.7` holds exactly when fewer than 6 of the 8 critical points are reliable. |
| Scoring.Gated | frontend/src/components/ai-coach/ExerciseAnalyzer.js:38-47 | A gated result has status `error`, score 0, exactly the mistake "Poor pose detection", confidence equal to the quality, and no phase or state. |
| Scoring.GatedConsistent | frontend/src/components/ai-coach/ExerciseAnalyzer.js:38-47 | The gated result obeys the scoring invariant, with the gate's entry costing the whole 100. |
| Scoring.Weight | frontend/src/components/ai-coach/ExerciseAnalyzer.js:86-171 | Every deduction lies between 8 and 100 points. |
| Scoring.Deducted | frontend/src/components/ai-coach/ExerciseAnalyzer.js:64-171 | Each listed mistake costs between 8 and 100 points. The total is 0 exactly when nothing is listed. |
| Scoring.DeductedAppend | frontend/src/components/ai-coach/ExerciseAnalyzer.js:64-171 | Deductions add up over concatenated mistake lists. |
| Scoring.DeductedPush | frontend/src/components/ai-coach/ExerciseAnalyzer.js:86-89 | Pushing a mistake adds exactly its weight to the deduction. |
| Scoring.StatusFor | frontend/src/components/ai-coach/ExerciseAnalyzer.js:174-178 | `perfect` exactly from 95 and `error` exactly below 60. Never `info`. |
| Scoring.StatusBands | frontend/src/components/ai-coach/ExerciseAnalyzer.js:174-178 | A higher score never earns a worse status. The bands start at 95, 85, 75 and 60. |
| Scoring.Graded | frontend/src/components/ai-coach/ExerciseAnalyzer.js:174-213 | A graded result keeps the invariant: score = max(0, 100 - deductions) in [0, 100]; status is the band of the score; no mistakes exactly when the score is 100, exactly when the status is `perfect`. |
| PushUp.PhaseOf | frontend/src/components/ai-coach/ExerciseAnalyzer.js:122-141 | The phase is `up` exactly above 150 degrees, `down` exactly below 90, and `transition` exactly in between. |
| PushUp.Check | frontend/src/components/ai-coach/ExerciseAnalyzer.js:86-171 | Depth is judged only in `down`. Sag and pike never both fire, and neither do too-close and too-wide hands. Swaying needs a previous state and a phase other than `transition`. |
| PushUp.Reported | frontend/src/components/ai-coach/ExerciseAnalyzer.js:86-171 | Each of the nine push-up mistakes is listed exactly when its rule fires. |
| PushUp.Analyze | frontend/src/components/ai-coach/ExerciseAnalyzer.js:36-215 | The result keeps the scoring invariant. It is gated exactly when quality < 0.7. Otherwise it gives the elbow-angle phase and the shoulder/hip/ankle state. It carries the depth, sag/pike, grip and stability exclusions. |
| Squat.PhaseOf | frontend/src/components/ai-coach/ExerciseAnalyzer.js:264-268 | The phase is `squatting` exactly below 110 degrees of average knee angle, and `standing` otherwise. |
| Squat.Check | frontend/src/components/ai-coach/ExerciseAnalyzer.js:264-333 | Depth is graded only while squatting: -10 within 0.03 above the knees, -25 beyond. The spine rule fires exactly below 160, because its `> 200` half cannot hold. The narrow and wide stance rules never both fire. |
| Squat.Reported | frontend/src/components/ai-coach/ExerciseAnalyzer.js:264-333 | Each of the eight squat mistakes is listed exactly when its rule fires. |
| Squat.Analyze | frontend/src/components/ai-coach/ExerciseAnalyzer.js:217-376 | The scoring invariant and the gate. Phase iff the knee angle. Graded depth only when squatting. The spine rule is exactly "below 160". Stance exclusion. The hip/knee/shoulder state. |
| Press.PhaseOf | frontend/src/components/ai-coach/ExerciseAnalyzer.js:420-427 | The phase is `extended` exactly above 150 degrees, `lowered` exactly below 90, and `transition` exactly in between. |
| Press.Check | frontend/src/components/ai-coach/ExerciseAnalyzer.js:410-476 | The asymmetry rule fires exactly when the elbow angles differ by more than 15. The elbow-under-wrist rule fires only when `lowered`. The flare rule fires exactly when either elbow is out more than 0.45 shoulder widths. |
| Press.Reported | frontend/src/components/ai-coach/ExerciseAnalyzer.js:410-476 | Each of the five press mistakes is listed exactly when its rule fires. |
| Press.WithinBudget | frontend/src/components/ai-coach/ExerciseAnalyzer.js:410-476 | All five press rules together deduct at most 85 points. |
| Press.Analyze | frontend/src/components/ai-coach/ExerciseAnalyzer.js:379-518 | The scoring invariant and the gate. An ungated press scores at least 15 and is never clamped. The asymmetry and flare iffs hold, and elbow stacking is only judged when `lowered`. |
| Deadlift.Check | frontend/src/components/ai-coach/ExerciseAnalyzer.js:559-579 | A rounded back fires exactly below 160 degrees, and slight rounding exactly in [160, 170). A shallow hinge fires exactly when the torso is shorter than 0.24. |
| Deadlift.Reported | frontend/src/components/ai-coach/ExerciseAnalyzer.js:559-614 | Each of the six deadlift mistakes is listed exactly when its rule fires. A back mistake, when one fires, comes first. |
| Deadlift.Analyze | frontend/src/components/ai-coach/ExerciseAnalyzer.js:521-656 | As written: the scoring invariant and the gate. The phase is always `lifting`. The back iffs hold, with the back mistake first. |
| Deadlift.RoundedBackOnlyWarns | frontend/src/components/ai-coach/ExerciseAnalyzer.js:566-621 | As written, a rounded back alone scores 65 with status `warning`. |
| Deadlift.IntendedStatus | frontend/src/components/ai-coach/ExerciseAnalyzer.js:566-571 | The status is `error` exactly when the back is rounded or the score band is `error`. |
| Deadlift.AnalyzeIntended | frontend/src/components/ai-coach/ExerciseAnalyzer.js:521-656 | Corrected: the status is never `info`. It is `error` exactly when a rounded back is listed or the score is below 60, and `perfect` exactly when nothing is listed. Without a rounded back it is the score band. |
| Deadlift.IntendedKeeps | frontend/src/components/ai-coach/ExerciseAnalyzer.js:566-621 | On any result that keeps the scoring invariant, recomputing the status the intended way changes nothing but the status, and that status obeys the corrected bands. |
| Deadlift.IntendedOnlyFixesStatus | frontend/src/components/ai-coach/ExerciseAnalyzer.js:566-621 | The corrected analysis has the written one's score, mistakes, confidence, phase and state. Its status differs only for a rounded back, which it reports as `error`. |
| Coach.Classify | frontend/src/components/ai-coach/AdvancedAICoach.js:310-330 | The analyzer is the first match on the lower-cased name: `push`, then `squat`, then `press`/`dumbbell`, then `deadlift`. Anything else is generic. Each choice is stated as an iff. |
| Coach.PushupMeansPush | frontend/src/components/ai-coach/AdvancedAICoach.js:314 | The `pushup` test is subsumed by the `push` test. |
| Coach.ClassifyIgnoresCase | frontend/src/components/ai-coach/AdvancedAICoach.js:310-314 | Lower-casing the name first changes nothing. |
| Coach.Analyzed | frontend/src/components/ai-coach/AdvancedAICoach.js:314-320 | Every recognised exercise runs its analyzer as written. The result keeps the scoring invariant (status band of the score, `perfect` exactly when nothing is listed), has a phase and state of its family, and is gated exactly when quality < 0.7. |
| Coach.Dispatch | frontend/src/components/ai-coach/AdvancedAICoach.js:310-330 | Status `info` exactly for generic names. A generic result has score 75, no mistakes, the pose's score as confidence, phase `active` and no state. Otherwise the result keeps the scoring invariant, so its status is the band of its score and never `info`. Its phase and state are of the chosen family, and it is gated exactly when quality < 0.7. |
| Coach.IsRepEdge | frontend/src/components/ai-coach/AdvancedAICoach.js:338-340 | A repetition is only push `down`→`up`, squat `squatting`→`standing` or press `lowered`→`extended`, and always changes phase. |
| Coach.Track | frontend/src/components/ai-coach/AdvancedAICoach.js:332-368 | The analysis becomes the feedback and its state (possibly none) the previous state. A reported phase becomes the last phase. The count rises by one exactly on a repetition edge. |
| Coach.AnalyzeFrame | frontend/src/components/ai-coach/AdvancedAICoach.js:281-368 | Nothing happens while stopped or without a pose. Otherwise the frame is tracked, and the count rises by at most one. |
| Coach.Start | frontend/src/components/ai-coach/AdvancedAICoach.js:399-411 | Ignored while loading. Otherwise the coach is active with count 0, phase `unknown` and no previous state. |
| Coach.Stop | frontend/src/components/ai-coach/AdvancedAICoach.js:443-445 | The coach becomes inactive, and the counters are kept. |
| Coach.Reset | frontend/src/components/ai-coach/AdvancedAICoach.js:454-457 | The counters become what a start gives, without changing whether the coach runs. |
| Coach.StoppedIgnoresFrames | frontend/src/components/ai-coach/AdvancedAICoach.js:282-284 | A stopped coach is unchanged by any run of frames. |
| Coach.RepCountMonotone | frontend/src/components/ai-coach/AdvancedAICoach.js:337-343 | Over a run, the count never falls and rises by at most one per frame. |
| Coach.UncountedNames | frontend/src/components/ai-coach/AdvancedAICoach.js:338-340 | A name without `push`, `squat` or `press` never counts. This includes dumbbell exercises that are not presses. |
| Coach.DeadliftAndGenericUncounted | frontend/src/components/ai-coach/AdvancedAICoach.js:316-330 | Deadlifts and unrecognised exercises never count. |
| Coach.NoStateNoSway | frontend/src/components/ai-coach/AdvancedAICoach.js:334 | A gated or generic frame leaves no previous state, so the next push-up frame cannot be judged as swaying. A gated frame changes neither count nor phase. |
| Coach.CountsEdges | frontend/src/components/ai-coach/AdvancedAICoach.js:337-367 | The loop's count equals the number of repetition edges in the reported phases (a reference count), and it ends on the last reported phase. |
| Coach.TwoPushUps | frontend/src/components/ai-coach/AdvancedAICoach.js:249 | For a push-up name, the loop starting from `unknown` over analyses that report the phases down, up, down, up adds two to the count and ends on `up`. |
| Text.ContainsIffOccurs | frontend/src/components/ai-coach/AdvancedAICoach.js:312-322 | The scanning `includes` is true exactly when the text occurs at some index. |
| Text.TrimNonEmptyIff | frontend/src/utils/helpers.js:100 | The trimmed name is non-empty exactly when it holds a non-white-space character. |
| Format.FormatDuration | frontend/src/utils/helpers.js:25-35 | Below an hour the text ends in " min". From an hour on it ends in `h` exactly on the hour, and in `m` otherwise. |
| Format.DurationRoundTrip | frontend/src/utils/helpers.js:25-35 | The text of any whole number of minutes reads back as that number. |
| Format.FormatTimer | frontend/src/utils/helpers.js:37-41 | For non-negative seconds: the padded minutes, a colon, and two more characters. |
| Format.TimerRoundTrip | frontend/src/utils/helpers.js:37-41 | The `MM:SS` text of any non-negative number of seconds reads back as that number. |
| Format.TimerSecondsField | frontend/src/utils/helpers.js:37-41 | The last two characters are digits giving `seconds % 60`, which is below 60. |
| Helpers.CalculateVolume | frontend/src/utils/helpers.js:66-74 | The volume is 0 when no set is completed, and non-negative for non-negative weights and reps. |
| Helpers.VolumeIgnoresTruthiness | frontend/src/utils/helpers.js:66-74 | The truthiness tests never change the sum: the volume is the completed sets' weight times reps. |
| Helpers.VolumeAppend | frontend/src/utils/helpers.js:66-74 | The volume adds up over consecutive runs of sets. |
| Helpers.Calculate1RM | frontend/src/utils/helpers.js:83-87 | A single gives the weight itself. Otherwise the result is an integer within half a unit of the Epley estimate. |
| Helpers.OneRepMaxMonotoneInWeight | frontend/src/utils/helpers.js:83-87 | A heavier weight never gives a lower estimate. |
| Helpers.OneRepMaxMonotoneInReps | frontend/src/utils/helpers.js:83-87 | From two reps up, more reps never give a lower estimate. |
| Helpers.ValidatePassword | frontend/src/utils/helpers.js:95-97 | Valid exactly when the password has at least 6 characters. |
| Helpers.ValidateWorkoutName | frontend/src/utils/helpers.js:99-101 | Valid exactly when some character is not white space and the name has at most 100 characters. |
| Helpers.GetColorByIndex | frontend/src/utils/helpers.js:176-188 | For i >= 0, the palette entry `i mod 8`. For negative i, a colour exactly when i is a multiple of 8. Any colour returned is in the palette. |
| Helpers.ColorsCycle | frontend/src/utils/helpers.js:176-188 | Colours repeat with period 8. |
| Collections.SortBy | frontend/src/utils/helpers.js:142-155 | The sorted copy has the input's length. |
| Collections.SortByCorrect | frontend/src/utils/helpers.js:142-155 | The result is a permutation of the input (multiset), ordered by the key ascending for `asc` and descending otherwise, and stable within equal keys. |
| Collections.GroupBy | frontend/src/utils/helpers.js:131-140 | The keys are listed once each and are exactly the items' keys. Each group is exactly the items with that key, in input order. |
| Collections.GroupSizesSum | frontend/src/utils/helpers.js:131-140 | The group sizes add up to the number of items. |
| Session.Reduce | frontend/src/context/WorkoutContext.js:26-205 | An exercise action fails exactly when there is no workout, and otherwise changes only the exercise list. START gives an active workout named by the payload or 'New Workout', with elapsed 0. END gives the initial state. The timer actions touch only their timer. An unknown action changes nothing. |
| Session.NameOr | frontend/src/context/WorkoutContext.js:36 | An absent or empty name becomes 'New Workout'. |
| Session.Tick | frontend/src/context/WorkoutContext.js:174-181 | A tick counts down by one, never below 0, and leaves `isActive` and the duration alone. |
| Session.TicksRunDown | frontend/src/context/WorkoutContext.js:174-181 | After n ticks, the time left is max(0, start - n). |
| Session.NextSet | frontend/src/context/WorkoutContext.js:95-101 | The new set is uncompleted and `normal`. It copies the last set's reps and weight, or has 0 reps of 0 lbs. |
| Session.AddExerciseAppends | frontend/src/context/WorkoutContext.js:52-73 | Exactly one exercise is appended, holding one fresh set. The existing exercises are unchanged. |
| Session.AddThenRemoveExercise | frontend/src/context/WorkoutContext.js:52-84 | Removing an exercise just added under a fresh id restores the session. |
| Session.RemoveExerciseExactly | frontend/src/context/WorkoutContext.js:75-84 | With unique ids, the removal takes out exactly that exercise and keeps the others in order. |
| Session.RemoveSetExactly | frontend/src/context/WorkoutContext.js:108-122 | With set ids unique within the exercise, REMOVE_SET takes out exactly that set and keeps the exercise's other sets in order. Exercises with another id are unchanged. |
| Session.AddThenRemoveSet | frontend/src/context/WorkoutContext.js:86-122 | Removing a set just added under a fresh set id restores the session. |
| Session.EditsOnlyTarget | frontend/src/context/WorkoutContext.js:124-162 | UPDATE_SET and COMPLETE_SET change only the sets whose exercise id and set id both match. |
| Session.CompleteTwice | frontend/src/context/WorkoutContext.js:144-162 | Completing twice equals completing once at the later time. |
| Session.ApplyLaws | frontend/src/context/WorkoutContext.js:135 | An empty update changes nothing. Applying an update twice equals applying it once. The set id is never touched. |
| Session.Summarize | frontend/src/context/WorkoutContext.js:215-248 | Nothing happens without a workout. Otherwise the duration is rounded minutes since the start, and the totals are those of the completed sets. |
| Session.ServerAgrees | frontend/src/context/WorkoutContext.js:220-248 | The save hook recomputes exactly the totals and duration that `endWorkout` posts. |
| Workouts.TallyIsSumOverCompleted | backend/models/Workout.js:186-202 | The hook's totals are the count, reps sum and weight×reps sum over the completed sets. |
| Workouts.UnfinishedSetsIgnored | backend/models/Workout.js:190-198 | Dropping uncompleted sets changes no total. |
| Workouts.Minutes | backend/models/Workout.js:206-208 | The duration is the nearest whole minute to the elapsed time, with a half minute rounding up. It is non-negative when the end is not before the start. |
| Workouts.PreSave | backend/models/Workout.js:184-211 | The totals are recomputed (completed sets only) exactly when the exercises were modified, and the duration only with an end time. |
| Workouts.PreSaveIdempotent | backend/models/Workout.js:184-211 | Saving twice equals saving once. |
| Workouts.MuscleGroups | backend/models/Workout.js:224-233 | Without duplicates: exactly the primary muscles of the populated exercises, and none when the exercises are not populated. |
| Workouts.MuscleGroupsGrow | backend/models/Workout.js:226-232 | Adding an exercise keeps the listed muscles in order at the front. |
| Routines.Estimate | backend/models/Routine.js:176-186 | The estimate minus 10 minutes is the total seconds rounded to the nearest minute. |
| Routines.EstimateAtLeastSetup | backend/models/Routine.js:176-186 | With non-negative sets and rests, the estimate is at least 10. |
| Routines.ZeroRestCostsDefault | backend/models/Routine.js:181 | A rest of 0 is costed exactly as an unset rest, or a rest of 90. |
| Routines.EstimateGrows | backend/models/Routine.js:178-183 | One more exercise never shortens the estimate. |
| Routines.Put | backend/models/Routine.js:194-200 | `Map.set` makes the key map to the value, leaves every other key alone, and keeps keys unique. |
| Routines.MarkSecondary | backend/models/Routine.js:197-202 | Secondary is set only for muscles not yet present. |
| Routines.Merge | backend/models/Routine.js:190-204 | A muscle ends primary exactly when some exercise lists it as primary, whatever the order. Otherwise it keeps its earlier value, or becomes secondary. |
| Routines.MuscleGroups | backend/models/Routine.js:189-210 | Each muscle appears once. It is primary exactly when listed as primary anywhere, and secondary exactly when listed only as secondary. |
| Routines.PreSave | backend/models/Routine.js:174-214 | Nothing changes unless the exercises were modified. Then the estimate is recomputed, and the merged muscle groups too when the references are populated. |

## Left out

- **PoseNet and the webcam.** Pose detection, `requestAnimationFrame`, canvas drawing, toasts and
  `onRepCount`/`onFeedback` are not part of this model. Frames come in as given keypoint lists.
- **17 keypoints.** The analyzers require all 17 keypoints. The source dereferences the nose,
  elbows and wrists without checking them, and the detector always returns 17.
- **React state.** Frames are a strictly sequential fold. The stale-closure and asynchronous
  behaviour of the React hooks are not modelled.
- **Floating point.** Coordinates, thresholds and weights are exact reals. `Math.atan2` and
  `Math.sqrt` are an oracle assumed to return values in [-PI, PI] and non-negative values.
- **Display text.** The `message`, `details` and `metrics` fields of an analysis are display text
  and are not modelled. Mistakes are an enumeration, each with its source text.
- **Effectful helpers.** `convertWeight`, `formatVolume`, `formatDate`, the localStorage helpers,
  `debounce` and `generateId` are not modelled: they round floats, use timers or clocks, or use
  randomness.
- **Ids and clocks in the reducer.** `uuidv4()` and `new Date()` are not modelled. Fresh ids and
  the current time are action parameters.
- **Server code.** Express routes, authentication, Mongoose queries, schema validation and the
  float running averages of `addRating` are not modelled.
- **Missing start time.** `endWorkout` with no start time is modelled as reading the start as the
  epoch, as JavaScript coerces `null` to 0.
- Text.Lower: lower-cases ASCII letters only, because exercise names in the catalogue are ASCII.
- Helpers.ValidatePassword: counts characters of the string, not UTF-16 code units.
- Helpers.ValidateWorkoutName: the 100 limit counts characters, not the UTF-16 code units that
  `name.length` counts. A name with characters outside the Basic Multilingual Plane can pass the
  model and fail the program.
- Collections.SortBy: sorts by integer keys only. The model does not cover JavaScript's comparison
  of mixed or missing values, and the key is a function rather than a property name.
- Collections.GroupBy: keeps keys in first-insertion order. JavaScript objects list
  integer-like keys first.
- Collections.GroupBy: keys are compared by equality. JavaScript coerces keys to property names,
  so 1 and "1" share a group. A key named like an `Object.prototype` member (`constructor`, say)
  finds an inherited value and skips the initialisation, and the following `push` throws.
- Session.Reduce: `UPDATE_SET` payloads are limited to reps, weight, set type, completion, rest
  time and notes. An update that overwrites `id` or `completedAt` is not modelled.
- Format.FormatTimer: the round trip is stated for non-negative seconds only. For negative input
  the seconds field carries JavaScript's signed remainder, and the model reproduces that without
  a reader.

## Findings

| source | as written | input that shows it | evidently intended | confidence | as-written member | corrected member |
|---|---|---|---|---|---|---|
| frontend/src/components/ai-coach/ExerciseAnalyzer.js:566-621 | A spine angle below 160 sets `status = 'error'` (line 570), but the score bands at lines 617-621 then overwrite the status. | A clean deadlift frame except for a spine angle of 150: score 100 - 35 = 65, status `warning`. | A critically rounded back always reports `error`, as the "CRITICAL" message and the rule's own assignment say. | medium, not executed | Deadlift.RoundedBackOnlyWarns | Deadlift.IntendedOnlyFixesStatus |

=== FILE: coach.dfy ===
/** AdvancedAICoach: which analyzer a named exercise gets, and the per-frame loop that keeps the
    feedback, the previous analyzer state, the last phase and the repetition count. */
module Coach {
  import opened Wrappers
  import opened Text
  import opened Geometry
  import opened Scoring
  import PushUp
  import Squat
  import Press
  import Deadlift

  // ---------------------------------------------------------------------------
  // Choosing an analyzer from the exercise name
  // ---------------------------------------------------------------------------

  datatype Family = PushUpFamily | SquatFamily | PressFamily | DeadliftFamily | Generic

  /** The analyzer chosen for an exercise name: the lower-cased name is tested for `push`
      (or `pushup`), `squat`, `press` or `dumbbell`, and `deadlift`, in that order. */
  function Classify(name: string): (f: Family)
    // testing for `pushup` after `push` adds nothing
    ensures f == PushUpFamily <==> Contains(Lower(name), "push")
    ensures f == SquatFamily <==> !Contains(Lower(name), "push") && Contains(Lower(name), "squat")
    ensures f == PressFamily <==>
      && !Contains(Lower(name), "push") && !Contains(Lower(name), "squat")
      && (Contains(Lower(name), "press") || Contains(Lower(name), "dumbbell"))
    ensures f == DeadliftFamily <==>
      && !Contains(Lower(name), "push") && !Contains(Lower(name), "squat")
      && !Contains(Lower(name), "press") && !Contains(Lower(name), "dumbbell")
      && Contains(Lower(name), "deadlift")
    ensures f == Generic <==>
      && !Contains(Lower(name), "push") && !Contains(Lower(name), "squat")
      && !Contains(Lower(name), "press") && !Contains(Lower(name), "dumbbell")
      && !Contains(Lower(name), "deadlift")
  {
    var lower := Lower(name);
    PushupMeansPush(lower);
    if Contains(lower, "push") || Contains(lower, "pushup") then PushUpFamily
    else if Contains(lower, "squat") then SquatFamily
    else if Contains(lower, "press") || Contains(lower, "dumbbell") then PressFamily
    else if Contains(lower, "deadlift") then DeadliftFamily
    else Generic
  }

  /** A name containing `pushup` contains `push`, so the second push-up test is redundant. */
  lemma PushupMeansPush(s: string)
    ensures Contains(s, "pushup") ==> Contains(s, "push")
  {
    if Contains(s, "pushup") {
      ContainsInfix(s, "pushup", "push", 0);
    }
  }

  /** The choice ignores letter case. */
  lemma ClassifyIgnoresCase(name: string)
    ensures Classify(Lower(name)) == Classify(name)
  {
    LowerIdempotent(name);
  }

  /** The phases an analyzer of the family can report. */
  function Phases(f: Family): set<Phase> {
    match f
    case PushUpFamily => {Up, Down, Transition}
    case SquatFamily => {Squatting, Standing}
    case PressFamily => {Extended, Lowered, Transition}
    case DeadliftFamily => {Lifting}
    case Generic => {Active}
  }

  /** The kind of state an analyzer of the family hands on to the next frame. */
  predicate StateFits(f: Family, s: AnalyzerState) {
    match f
    case PushUpFamily => s.PushUpState?
    case SquatFamily => s.SquatState?
    case PressFamily => s.PressState?
    case DeadliftFamily => s.DeadliftState?
    case Generic => false
  }

  /** A detected pose: the keypoints and the detector's overall score. */
  datatype Pose = Pose(keypoints: seq<Keypoint>, score: real)

  /** What every analysis of a recognised exercise satisfies: the scoring invariant (a score of
      100 less the deductions, never below zero, whose band is the status, `perfect` exactly
      when nothing is listed), a phase and state of the family's own kind, and the pose-quality
      gate. */
  predicate Fits(f: Family, quality: real, r: Analysis) {
    && Consistent(r)
    && (r.phase.Some? ==> r.phase.value in Phases(f))
    && (r.state.Some? ==> StateFits(f, r.state.value))
    && (quality < QualityThreshold <==> IsGated(r, quality))
  }

  lemma PushUpFits(o: Oracle, kps: seq<Keypoint>, previous: Option<AnalyzerState>)
    requires Sound(o) && IsFrame(kps)
    ensures Fits(PushUpFamily, PoseQuality(kps), PushUp.Analyze(o, kps, previous))
  {
  }

  lemma SquatFits(o: Oracle, kps: seq<Keypoint>, previous: Option<AnalyzerState>)
    requires Sound(o) && IsFrame(kps)
    ensures Fits(SquatFamily, PoseQuality(kps), Squat.Analyze(o, kps, previous))
  {
  }

  lemma PressFits(o: Oracle, kps: seq<Keypoint>, previous: Option<AnalyzerState>)
    requires Sound(o) && IsFrame(kps)
    ensures Fits(PressFamily, PoseQuality(kps), Press.Analyze(o, kps, previous))
  {
  }

  lemma DeadliftFits(o: Oracle, kps: seq<Keypoint>, previous: Option<AnalyzerState>)
    requires Sound(o) && IsFrame(kps)
    ensures Fits(DeadliftFamily, PoseQuality(kps), Deadlift.Analyze(o, kps, previous))
  {
  }

  /** The analysis of a recognised exercise: one of the four analyzers, each as written. */
  function Analyzed(f: Family, o: Oracle, kps: seq<Keypoint>, previous: Option<AnalyzerState>): (r: Analysis)
    requires f != Generic
    requires Sound(o) && IsFrame(kps)
    ensures Fits(f, PoseQuality(kps), r)
  {
    match f
    case PushUpFamily => PushUpFits(o, kps, previous); PushUp.Analyze(o, kps, previous)
    case SquatFamily => SquatFits(o, kps, previous); Squat.Analyze(o, kps, previous)
    case PressFamily => PressFits(o, kps, previous); Press.Analyze(o, kps, previous)
    case DeadliftFamily => DeadliftFits(o, kps, previous); Deadlift.Analyze(o, kps, previous)
  }

  /** One frame's analysis. A name that matches no analyzer gets an informational result
      at a fixed 75 with the pose's own score as confidence; it keeps no state. That result
      has no `mistakes` field at all, which is modelled as an empty list. */
  function Dispatch(o: Oracle, name: string, pose: Pose, previous: Option<AnalyzerState>): (r: Analysis)
    requires Sound(o) && IsFrame(pose.keypoints)
    ensures r.status == Info <==> Classify(name) == Generic
    ensures r.phase.Some? ==> r.phase.value in Phases(Classify(name))
    ensures r.state.Some? ==> StateFits(Classify(name), r.state.value)
    ensures Classify(name) == Generic ==>
      && r.score == 75 && r.mistakes == [] && r.confidence == pose.score
      && r.phase == Some(Active) && r.state == None
    ensures Classify(name) != Generic ==> Fits(Classify(name), PoseQuality(pose.keypoints), r)
  {
    var f := Classify(name);
    if f == Generic then Analysis(Info, 75, [], Some(Active), pose.score, None)
    else Analyzed(f, o, pose.keypoints, previous)
  }

  // ---------------------------------------------------------------------------
  // The coach's state and its frame loop
  // ---------------------------------------------------------------------------

  /** The coach's React state and refs that the loop reads and writes. */
  datatype Coach = Coach(
    active: bool, repCount: nat, lastPhase: Phase,
    previous: Option<AnalyzerState>, feedback: Option<Analysis>)

  /** The coach before its first start: the feedback is the `info` greeting with score and
      confidence 0, which lists no mistake and carries no phase or state. */
  const Initial: Coach := Coach(false, 0, Unknown, None, Some(Analysis(Info, 0, [], None, 0.0, None)))

  /** A finished repetition: the name names the exercise, and the phase moves from the bottom
      to the top of that exercise's movement. */
  function IsRepEdge(name: string, last: Phase, next: Phase): (b: bool)
    ensures b ==> last != next
    ensures b ==> (last == Down && next == Up) || (last == Squatting && next == Standing)
                  || (last == Lowered && next == Extended)
    ensures b && last == Down ==> Contains(Lower(name), "push")
    ensures b && last == Squatting ==> Contains(Lower(name), "squat")
    ensures b && last == Lowered ==> Contains(Lower(name), "press")
  {
    var lower := Lower(name);
    || (Contains(lower, "push") && last == Down && next == Up)
    || (Contains(lower, "squat") && last == Squatting && next == Standing)
    || (Contains(lower, "press") && last == Lowered && next == Extended)
  }

  /** What the loop does with one analysis: it becomes the feedback, its state (or the lack of
      one) becomes the previous state, and a reported phase that differs from the last one
      becomes the last phase, counting a repetition when it completes one. */
  function Track(name: string, c: Coach, r: Analysis): (c': Coach)
    ensures c'.active == c.active && c'.feedback == Some(r) && c'.previous == r.state
    ensures c'.lastPhase == if r.phase.Some? then r.phase.value else c.lastPhase
    // the "phase changed" guard never suppresses a count: a repetition always changes phase
    ensures c'.repCount == c.repCount + if r.phase.Some? && IsRepEdge(name, c.lastPhase, r.phase.value) then 1 else 0
  {
    var c1 := c.(feedback := Some(r), previous := r.state);
    if r.phase.Some? && r.phase.value != c.lastPhase then
      var counted := if IsRepEdge(name, c.lastPhase, r.phase.value) then c1.repCount + 1 else c1.repCount;
      c1.(repCount := counted, lastPhase := r.phase.value)
    else
      c1
  }

  /** Poses the detector can hand over: each present pose has all 17 keypoints. */
  predicate Detectable(poses: seq<Option<Pose>>) {
    forall i :: 0 <= i < |poses| && poses[i].Some? ==> IsFrame(poses[i].value.keypoints)
  }

  /** One iteration of `analyzeFrame`: nothing happens while the coach is stopped or when no
      pose was detected. */
  function AnalyzeFrame(o: Oracle, name: string, c: Coach, pose: Option<Pose>): (c': Coach)
    requires Sound(o)
    requires pose.Some? ==> IsFrame(pose.value.keypoints)
    ensures !c.active || pose.None? ==> c' == c
    ensures c.active && pose.Some? ==>
      c' == Track(name, c, Dispatch(o, name, pose.value, c.previous))
    ensures c'.active == c.active
    ensures c.repCount <= c'.repCount <= c.repCount + 1
  {
    if !c.active || pose.None? then c
    else Track(name, c, Dispatch(o, name, pose.value, c.previous))
  }

  /** The loop over a stream of detections. */
  function Run(o: Oracle, name: string, c: Coach, poses: seq<Option<Pose>>): Coach
    requires Sound(o) && Detectable(poses)
    decreases |poses|
  {
    if poses == [] then c
    else Run(o, name, AnalyzeFrame(o, name, c, poses[0]), poses[1..])
  }

  /** `startCoach`: ignored while the model is loading; otherwise the coach starts afresh. */
  function Start(c: Coach, loading: bool): (c': Coach)
    ensures loading ==> c' == c
    ensures !loading ==>
      c'.active && c'.repCount == 0 && c'.lastPhase == Unknown && c'.previous == None
    ensures c'.feedback == c.feedback
  {
    if loading then c else Coach(true, 0, Unknown, None, c.feedback)
  }

  /** `stopCoach`. */
  function Stop(c: Coach): (c': Coach)
    ensures !c'.active
    ensures c'.repCount == c.repCount && c'.lastPhase == c.lastPhase && c'.previous == c.previous
  {
    c.(active := false)
  }

  /** `resetCounter`: the counters of a start, without starting or stopping the coach. */
  function Reset(c: Coach): (c': Coach)
    ensures c' == Start(c, false).(active := c.active)
  {
    c.(repCount := 0, lastPhase := Unknown, previous := None)
  }

  // ---------------------------------------------------------------------------
  // Properties of the loop
  // ---------------------------------------------------------------------------

  /** A stopped coach ignores every frame. */
  lemma {:induction false} StoppedIgnoresFrames(o: Oracle, name: string, c: Coach, poses: seq<Option<Pose>>)
    requires Sound(o) && Detectable(poses)
    requires !c.active
    ensures Run(o, name, c, poses) == c
    decreases |poses|
  {
    if poses != [] {
      StoppedIgnoresFrames(o, name, AnalyzeFrame(o, name, c, poses[0]), poses[1..]);
    }
  }

  /** The count never goes down, and rises by at most one per frame. */
  lemma {:induction false} RepCountMonotone(o: Oracle, name: string, c: Coach, poses: seq<Option<Pose>>)
    requires Sound(o) && Detectable(poses)
    ensures c.repCount <= Run(o, name, c, poses).repCount <= c.repCount + |poses|
    ensures Run(o, name, c, poses).active == c.active
    decreases |poses|
  {
    if poses != [] {
      RepCountMonotone(o, name, AnalyzeFrame(o, name, c, poses[0]), poses[1..]);
    }
  }

  /** A name without `push`, `squat` or `press` never counts a repetition: deadlifts, unknown
      exercises and dumbbell exercises that are not presses. */
  lemma {:induction false} UncountedNames(o: Oracle, name: string, c: Coach, poses: seq<Option<Pose>>)
    requires Sound(o) && Detectable(poses)
    requires !Contains(Lower(name), "push") && !Contains(Lower(name), "squat")
    requires !Contains(Lower(name), "press")
    ensures Run(o, name, c, poses).repCount == c.repCount
    decreases |poses|
  {
    if poses != [] {
      UncountedNames(o, name, AnalyzeFrame(o, name, c, poses[0]), poses[1..]);
    }
  }

  /** In particular, a deadlift or an unrecognised exercise keeps its count. */
  lemma DeadliftAndGenericUncounted(o: Oracle, name: string, c: Coach, poses: seq<Option<Pose>>)
    requires Sound(o) && Detectable(poses)
    requires Classify(name) == DeadliftFamily || Classify(name) == Generic
    ensures Run(o, name, c, poses).repCount == c.repCount
  {
    UncountedNames(o, name, c, poses);
  }

  /** A frame that fails the pose-quality gate (or an unrecognised exercise's frame) hands no
      state on, so the next push-up frame cannot be judged as swaying. */
  lemma NoStateNoSway(o: Oracle, name: string, c: Coach, pose: Pose, next: seq<Keypoint>)
    requires Sound(o) && IsFrame(pose.keypoints) && IsFrame(next)
    requires c.active
    requires Classify(name) == Generic || PoseQuality(pose.keypoints) < QualityThreshold
    ensures var c' := AnalyzeFrame(o, name, c, Some(pose));
      && c'.previous == None
      && Swaying !in PushUp.Analyze(o, next, c'.previous).mistakes
    ensures Classify(name) != Generic ==>
      var c' := AnalyzeFrame(o, name, c, Some(pose));
      c'.repCount == c.repCount && c'.lastPhase == c.lastPhase
  {
  }

  // ---------------------------------------------------------------------------
  // The count as the number of phase edges
  // ---------------------------------------------------------------------------

  /** The reported phases of a run of analyses, in order. */
  function PhasesOf(rs: seq<Analysis>): (ps: seq<Phase>)
    ensures |ps| <= |rs|
    ensures forall p :: p in ps ==> exists r :: r in rs && r.phase == Some(p)
  {
    if rs == [] then []
    else if rs[0].phase.Some? then [rs[0].phase.value] + PhasesOf(rs[1..])
    else PhasesOf(rs[1..])
  }

  /** A reference count: the repetition edges between consecutive phases, starting from `last`. */
  function EdgeCount(name: string, last: Phase, ps: seq<Phase>): nat
    decreases |ps|
  {
    if ps == [] then 0
    else (if IsRepEdge(name, last, ps[0]) then 1 else 0) + EdgeCount(name, ps[0], ps[1..])
  }

  function LastOr(last: Phase, ps: seq<Phase>): Phase {
    if ps == [] then last else ps[|ps| - 1]
  }

  /** The loop's bookkeeping over a run of analyses. */
  function TrackAll(name: string, c: Coach, rs: seq<Analysis>): Coach
    decreases |rs|
  {
    if rs == [] then c else TrackAll(name, Track(name, c, rs[0]), rs[1..])
  }

  /** The loop counts exactly the repetition edges of the reported phases, and ends on the last
      reported phase. */
  lemma {:induction false} CountsEdges(name: string, c: Coach, rs: seq<Analysis>)
    ensures TrackAll(name, c, rs).repCount == c.repCount + EdgeCount(name, c.lastPhase, PhasesOf(rs))
    ensures TrackAll(name, c, rs).lastPhase == LastOr(c.lastPhase, PhasesOf(rs))
    decreases |rs|
  {
    if rs != [] {
      var c1 := Track(name, c, rs[0]);
      CountsEdges(name, c1, rs[1..]);
      if rs[0].phase.Some? {
        var ps := PhasesOf(rs[1..]);
        assert PhasesOf(rs) == [rs[0].phase.value] + ps;
        assert ([rs[0].phase.value] + ps)[1..] == ps;
        if ps != [] {
          assert LastOr(c.lastPhase, PhasesOf(rs)) == ps[|ps| - 1];
        }
      }
    }
  }

  /** Down, up, down, up after a start counts two push-ups, and the loop ends in `up`. */
  lemma TwoPushUps(c: Coach, rs: seq<Analysis>)
    requires c.lastPhase == Unknown && PhasesOf(rs) == [Down, Up, Down, Up]
    ensures TrackAll("Push-ups", c, rs).repCount == c.repCount + 2
    ensures TrackAll("Push-ups", c, rs).lastPhase == Up
  {
    CountsEdges("Push-ups", c, rs);
    TwoPushUpEdges();
  }

  /** The reference count of down, up, down, up from `unknown` for a push-up name. */
  lemma TwoPushUpEdges()
    ensures EdgeCount("Push-ups", Unknown, [Down, Up, Down, Up]) == 2
  {
    var lower := Lower("Push-ups");
    assert lower[..4] == "push";
    assert Contains(lower, "push");
    assert IsRepEdge("Push-ups", Down, Up);
    assert !IsRepEdge("Push-ups", Unknown, Down) && !IsRepEdge("Push-ups", Up, Down);
    assert [Down, Up, Down, Up][1..] == [Up, Down, Up];
    assert [Up, Down, Up][1..] == [Down, Up];
    assert [Down, Up][1..] == [Up];
  }
}

=== FILE: collections.dfy ===
/** helpers.js `sortBy` and `groupBy` over immutable sequences. */
module Collections {

  // ---------------------------------------------------------------------------
  // sortBy
  // ---------------------------------------------------------------------------

  /** The comparator's verdict that a key goes strictly before another: ascending for the
      order `asc`, descending for any other order. */
  function Precedes(ascending: bool, a: int, b: int): bool {
    if ascending then a < b else a > b
  }

  /** No element goes strictly before an earlier one. */
  ghost predicate Ordered<T>(ascending: bool, key: T -> int, s: seq<T>) {
    forall i, j :: 0 <= i < j < |s| ==> !Precedes(ascending, key(s[j]), key(s[i]))
  }

  /** The elements of `s` whose key is `k`, in order. */
  function WithKey<T>(s: seq<T>, key: T -> int, k: int): (r: seq<T>)
    ensures |r| <= |s|
    decreases |s|
  {
    if s == [] then []
    else (if key(s[0]) == k then [s[0]] else []) + WithKey(s[1..], key, k)
  }

  lemma {:induction false} WithKeyAppend<T>(a: seq<T>, b: seq<T>, key: T -> int, k: int)
    ensures WithKey(a + b, key, k) == WithKey(a, key, k) + WithKey(b, key, k)
    decreases |a|
  {
    if a == [] {
      assert a + b == b;
    } else {
      var head := if key(a[0]) == k then [a[0]] else [];
      assert (a + b)[0] == a[0];
      assert (a + b)[1..] == a[1..] + b;
      assert WithKey(a + b, key, k) == head + WithKey(a[1..] + b, key, k);
      WithKeyAppend(a[1..], b, key, k);
      assert WithKey(a, key, k) == head + WithKey(a[1..], key, k);
    }
  }

  /** Inserts `x` before the first element it strictly precedes, that is after every element
      whose key ties with it. */
  function Insert<T(==,!new)>(ascending: bool, key: T -> int, x: T, s: seq<T>): (r: seq<T>)
    ensures |r| == |s| + 1
    ensures forall y :: y in r <==> y == x || y in s
    decreases |s|
  {
    if s == [] then [x]
    else if Precedes(ascending, key(x), key(s[0])) then [x] + s
    else [s[0]] + Insert(ascending, key, x, s[1..])
  }

  lemma {:induction false} InsertPermutes<T(!new)>(ascending: bool, key: T -> int, x: T, s: seq<T>)
    ensures multiset(Insert(ascending, key, x, s)) == multiset(s) + multiset{x}
    decreases |s|
  {
    if s != [] && !Precedes(ascending, key(x), key(s[0])) {
      InsertPermutes(ascending, key, x, s[1..]);
      assert s == [s[0]] + s[1..];
    }
  }

  lemma {:induction false} InsertOrdered<T(!new)>(ascending: bool, key: T -> int, x: T, s: seq<T>)
    requires Ordered(ascending, key, s)
    ensures Ordered(ascending, key, Insert(ascending, key, x, s))
    decreases |s|
  {
    if s != [] && !Precedes(ascending, key(x), key(s[0])) {
      var rest := Insert(ascending, key, x, s[1..]);
      InsertOrdered(ascending, key, x, s[1..]);
      var r := [s[0]] + rest;
      forall i, j | 0 <= i < j < |r|
        ensures !Precedes(ascending, key(r[j]), key(r[i]))
      {
        if i == 0 {
          assert r[j] in rest;
          if r[j] != x {
            var m :| 0 <= m < |s[1..]| && s[1..][m] == r[j];
            assert s[m + 1] == r[j];
          }
        } else {
          assert r[i] == rest[i - 1] && r[j] == rest[j - 1];
        }
      }
    }
  }

  /** Inserting keeps every tie class in order and puts `x` last in its own. */
  lemma {:induction false} InsertStable<T(!new)>(ascending: bool, key: T -> int, x: T, s: seq<T>, k: int)
    requires Ordered(ascending, key, s)
    ensures WithKey(Insert(ascending, key, x, s), key, k)
      == WithKey(s, key, k) + (if key(x) == k then [x] else [])
    decreases |s|
  {
    var tail := if key(x) == k then [x] else [];
    if s == [] {
    } else if Precedes(ascending, key(x), key(s[0])) {
      var r := [x] + s;
      assert r[0] == x && r[1..] == s;
      if key(x) == k {
        NoneWithKey(ascending, key, x, s);
      }
    } else {
      var rest := Insert(ascending, key, x, s[1..]);
      var head := if key(s[0]) == k then [s[0]] else [];
      var r := [s[0]] + rest;
      assert r[0] == s[0] && r[1..] == rest;
      OrderedTail(ascending, key, s);
      calc {
        WithKey(r, key, k);
      ==
        head + WithKey(rest, key, k);
      == { InsertStable(ascending, key, x, s[1..], k); }
        head + (WithKey(s[1..], key, k) + tail);
      ==
        (head + WithKey(s[1..], key, k)) + tail;
      ==
        WithKey(s, key, k) + tail;
      }
    }
  }

  lemma OrderedTail<T>(ascending: bool, key: T -> int, s: seq<T>)
    requires s != [] && Ordered(ascending, key, s)
    ensures Ordered(ascending, key, s[1..])
  {
    assert forall i :: 0 <= i < |s| - 1 ==> s[1..][i] == s[i + 1];
  }

  /** Nothing in an ordered sequence ties with a key that strictly precedes its first element. */
  lemma {:induction false} NoneWithKey<T>(ascending: bool, key: T -> int, x: T, s: seq<T>)
    requires Ordered(ascending, key, s)
    requires s != [] && Precedes(ascending, key(x), key(s[0]))
    ensures WithKey(s, key, key(x)) == []
    decreases |s|
  {
    if |s| > 1 {
      assert !Precedes(ascending, key(s[1]), key(s[0]));
      NoneWithKey(ascending, key, x, s[1..]);
    }
  }

  /** Insertion sort, taking the elements in input order. */
  function InsertionSort<T(==,!new)>(ascending: bool, key: T -> int, xs: seq<T>): (r: seq<T>)
    ensures |r| == |xs|
    decreases |xs|
  {
    if xs == [] then []
    else Insert(ascending, key, xs[|xs| - 1], InsertionSort(ascending, key, xs[..|xs| - 1]))
  }

  /** `sortBy(array, key, order)`: a new sequence, ordered by key, ascending for `asc` and
      descending otherwise; the argument itself is a value and stays as it was. */
  function SortBy<T(==,!new)>(xs: seq<T>, key: T -> int, order: string): (r: seq<T>)
    ensures |r| == |xs|
  {
    InsertionSort(order == "asc", key, xs)
  }

  /** The sorted sequence is a permutation of the input, ordered, and stable: elements with equal
      keys keep their input order (the engine's `Array.prototype.sort` is stable). */
  lemma {:induction false} SortByCorrect<T(!new)>(xs: seq<T>, key: T -> int, order: string)
    ensures multiset(SortBy(xs, key, order)) == multiset(xs)
    ensures Ordered(order == "asc", key, SortBy(xs, key, order))
    ensures forall k :: WithKey(SortBy(xs, key, order), key, k) == WithKey(xs, key, k)
    decreases |xs|
  {
    var asc := order == "asc";
    if xs != [] {
      var init := xs[..|xs| - 1];
      var last := xs[|xs| - 1];
      SortByCorrect(init, key, order);
      var sorted := InsertionSort(asc, key, init);
      InsertPermutes(asc, key, last, sorted);
      InsertOrdered(asc, key, last, sorted);
      assert xs == init + [last];
      forall k
        ensures WithKey(SortBy(xs, key, order), key, k) == WithKey(xs, key, k)
      {
        InsertStable(asc, key, last, sorted, k);
        WithKeyAppend(init, [last], key, k);
        assert WithKey([last], key, k) == if key(last) == k then [last] else [];
      }
    }
  }

  // ---------------------------------------------------------------------------
  // groupBy
  // ---------------------------------------------------------------------------

  /** The object `groupBy` builds: its keys (each once, in the order they were added) and the
      array stored under each. */
  datatype Groups<K, T> = Groups(keys: seq<K>, members: map<K, seq<T>>)

  /** The elements of `s` whose key is `k`, in order, for keys of any type. */
  function Having<T, K(==,!new)>(s: seq<T>, key: T -> K, k: K): seq<T>
    decreases |s|
  {
    if s == [] then []
    else Having(s[..|s| - 1], key, k) + if key(s[|s| - 1]) == k then [s[|s| - 1]] else []
  }

  /** An item whose key is not `k` is never found under `k`. */
  lemma {:induction false} HavingNone<T, K(!new)>(s: seq<T>, key: T -> K, k: K)
    ensures (forall i :: 0 <= i < |s| ==> key(s[i]) != k) ==> Having(s, key, k) == []
    decreases |s|
  {
    if s != [] {
      var init := s[..|s| - 1];
      assert forall i :: 0 <= i < |init| ==> init[i] == s[i];
      HavingNone(init, key, k);
    }
  }

  predicate Distinct<K(==)>(s: seq<K>) {
    forall i, j :: 0 <= i < j < |s| ==> s[i] != s[j]
  }

  /** The reduce step: push the item onto its key's array, creating the array on first use. */
  function AddItem<T, K(==,!new)>(g: Groups<K, T>, key: T -> K, x: T): Groups<K, T> {
    var k := key(x);
    if k in g.members then Groups(g.keys, g.members[k := g.members[k] + [x]])
    else Groups(g.keys + [k], g.members[k := [x]])
  }

  /** `groupBy(array, key)`: every item lands in the array of its own key, in input order, and
      the keys are exactly the items' keys, each listed once. */
  function GroupBy<T, K(==,!new)>(xs: seq<T>, key: T -> K): (g: Groups<K, T>)
    ensures Distinct(g.keys)
    ensures forall k :: k in g.keys <==> k in g.members
    ensures forall k :: k in g.members <==> exists i :: 0 <= i < |xs| && key(xs[i]) == k
    ensures forall k :: k in g.members ==> g.members[k] == Having(xs, key, k)
    decreases |xs|
  {
    if xs == [] then Groups([], map[])
    else
      var init := xs[..|xs| - 1];
      var g := GroupBy(init, key);
      var x := xs[|xs| - 1];
      assert init + [x] == xs;
      AddItemStep(init, key, g, x);
      AddItem(g, key, x)
  }

  /** What `groupBy` promises of the groups `g` it builds from `xs`. */
  ghost predicate Grouped<T, K(!new)>(xs: seq<T>, key: T -> K, g: Groups<K, T>) {
    && Distinct(g.keys)
    && (forall k :: k in g.keys <==> k in g.members)
    && (forall k :: k in g.members <==> exists i :: 0 <= i < |xs| && key(xs[i]) == k)
    && (forall k :: k in g.members ==> g.members[k] == Having(xs, key, k))
  }

  /** One step of the reduce keeps the promise. */
  lemma AddItemStep<T, K(!new)>(init: seq<T>, key: T -> K, g: Groups<K, T>, x: T)
    requires Distinct(g.keys)
    requires forall k :: k in g.keys <==> k in g.members
    requires forall k :: k in g.members <==> exists i :: 0 <= i < |init| && key(init[i]) == k
    requires forall k :: k in g.members ==> g.members[k] == Having(init, key, k)
    ensures Grouped(init + [x], key, AddItem(g, key, x))
  {
    AddItemKeys(g, key, x);
    AddItemMembers(init, key, g, x);
    AddItemGroups(init, key, g, x);
  }

  /** The keys stay distinct and in step with the stored arrays. */
  lemma AddItemKeys<T, K(!new)>(g: Groups<K, T>, key: T -> K, x: T)
    requires Distinct(g.keys)
    requires forall k :: k in g.keys <==> k in g.members
    ensures var g' := AddItem(g, key, x);
      Distinct(g'.keys) && forall k :: k in g'.keys <==> k in g'.members
  {
    if key(x) !in g.members {
      var keys := g.keys + [key(x)];
      assert forall i :: 0 <= i < |g.keys| ==> keys[i] == g.keys[i];
    }
  }

  /** A key is stored exactly when some item so far has it. */
  lemma AddItemMembers<T, K(!new)>(init: seq<T>, key: T -> K, g: Groups<K, T>, x: T)
    requires forall k :: k in g.members <==> exists i :: 0 <= i < |init| && key(init[i]) == k
    ensures var g' := AddItem(g, key, x); var xs := init + [x];
      forall k :: k in g'.members <==> exists i :: 0 <= i < |xs| && key(xs[i]) == k
  {
    var g' := AddItem(g, key, x);
    forall k
      ensures k in g'.members <==> exists i :: 0 <= i < |init + [x]| && key((init + [x])[i]) == k
    {
      OccursSnoc(init, key, x, k);
    }
  }

  /** Every stored array holds exactly the items so far with its key. */
  lemma AddItemGroups<T, K(!new)>(init: seq<T>, key: T -> K, g: Groups<K, T>, x: T)
    requires forall k :: k in g.members <==> exists i :: 0 <= i < |init| && key(init[i]) == k
    requires forall k :: k in g.members ==> g.members[k] == Having(init, key, k)
    ensures var g' := AddItem(g, key, x);
      forall k :: k in g'.members ==> g'.members[k] == Having(init + [x], key, k)
  {
    var g' := AddItem(g, key, x);
    if key(x) !in g.members {
      HavingNone(init, key, key(x));
    }
    forall k | k in g'.members
      ensures g'.members[k] == Having(init + [x], key, k)
    {
      HavingSnoc(init, key, x, k);
    }
  }

  lemma HavingSnoc<T, K(!new)>(init: seq<T>, key: T -> K, x: T, k: K)
    ensures Having(init + [x], key, k) == Having(init, key, k) + if key(x) == k then [x] else []
  {
    var xs := init + [x];
    assert xs[..|xs| - 1] == init;
  }

  lemma OccursSnoc<T, K(!new)>(init: seq<T>, key: T -> K, x: T, k: K)
    ensures (exists i :: 0 <= i < |init + [x]| && key((init + [x])[i]) == k) <==>
              (exists i :: 0 <= i < |init| && key(init[i]) == k) || key(x) == k
  {
    var xs := init + [x];
    if exists i :: 0 <= i < |init| && key(init[i]) == k {
      var i :| 0 <= i < |init| && key(init[i]) == k;
      assert xs[i] == init[i];
    }
    if key(x) == k {
      assert xs[|init|] == x;
    }
    if exists i :: 0 <= i < |xs| && key(xs[i]) == k {
      var i :| 0 <= i < |xs| && key(xs[i]) == k;
      if i < |init| {
        assert xs[i] == init[i];
      }
    }
  }

  /** The total size of the arrays stored under `keys`. */
  function SizeOf<T, K(==,!new)>(keys: seq<K>, members: map<K, seq<T>>): nat
    requires forall k :: k in keys ==> k in members
    decreases |keys|
  {
    if keys == [] then 0 else SizeOf(keys[..|keys| - 1], members) + |members[keys[|keys| - 1]]|
  }

  lemma {:induction false} SizeOfUpdate<T, K(!new)>(keys: seq<K>, members: map<K, seq<T>>, k: K, v: seq<T>)
    requires forall j :: j in keys ==> j in members
    requires Distinct(keys)
    ensures SizeOf(keys, members[k := v]) == SizeOf(keys, members) + if k in keys then |v| - |members[k]| else 0
    decreases |keys|
  {
    if keys != [] {
      var init := keys[..|keys| - 1];
      assert forall j :: j in init ==> j in keys;
      SizeOfUpdate(init, members, k, v);
      if k == keys[|keys| - 1] {
        assert k !in init;
      } else if k in keys {
        assert k in init;
      }
    }
  }

  /** Every item is in exactly one group: the group sizes add up to the number of items. */
  lemma {:induction false} GroupSizesSum<T, K(!new)>(xs: seq<T>, key: T -> K)
    ensures var g := GroupBy(xs, key); SizeOf(g.keys, g.members) == |xs|
    decreases |xs|
  {
    if xs != [] {
      var init := xs[..|xs| - 1];
      var x := xs[|xs| - 1];
      var g := GroupBy(init, key);
      GroupSizesSum(init, key);
      var k := key(x);
      if k in g.members {
        SizeOfUpdate(g.keys, g.members, k, g.members[k] + [x]);
      } else {
        SizeOfUpdate(g.keys, g.members, k, [x]);
        var keys := g.keys + [k];
        assert keys[..|keys| - 1] == g.keys;
      }
    }
  }
}

=== FILE: deadlift.dfy ===
/** ExerciseAnalyzer.analyzeDeadlift: back neutrality, hip hinge, knee travel and bar path of a
    deadlift. `Analyze` is the function as written, whose "rounded back is an error" status is
    overwritten by the score bands; the coach calls it. `AnalyzeIntended` keeps that status and
    serves only as the corrected counterpart of that behaviour. */
module Deadlift {
  import opened Wrappers
  import opened Geometry
  import opened Scoring

  const TorsoLength: real := 0.3
  const HipOverFeetTolerance: real := 0.05
  const KneeTravelTolerance: real := 0.1
  const BarPathTolerance: real := 0.15

  /** The angle at the shoulder midpoint between the nose and the hip midpoint. */
  function SpineAngle(o: Oracle, kps: seq<Keypoint>): (a: real)
    requires Sound(o) && IsFrame(kps)
    ensures 0.0 <= a <= 180.0
  {
    Angle(o, P(kps, Nose), ShoulderMid(kps), HipMid(kps))
  }

  /** Which deadlift rules fire on a frame. */
  datatype Checks = Checks(
    backRounded: bool, backSlightlyRounded: bool, shallowHinge: bool,
    hipsStraightDown: bool, kneesForward: bool, weightAway: bool)

  /** The deadlift checks, with the thresholds of the source. */
  function Check(o: Oracle, kps: seq<Keypoint>): (c: Checks)
    requires Sound(o) && IsFrame(kps)
    // rounding is graded: below 160 degrees is critical, 160 up to 170 is slight
    ensures c.backRounded <==> SpineAngle(o, kps) < 160.0
    ensures c.backSlightlyRounded <==> 160.0 <= SpineAngle(o, kps) < 170.0
    // the hinge must open the torso to at least 80% of a typical torso length
    ensures c.shallowHinge <==> Distance(o, HipMid(kps), ShoulderMid(kps)) < 0.24
  {
    var shoulderMid := ShoulderMid(kps);
    var hipMid := HipMid(kps);
    var ankleMid := AnkleMid(kps);
    var kneeMid := KneeMid(kps);
    var spineAngle := SpineAngle(o, kps);
    Checks(
      backRounded := spineAngle < 160.0,
      backSlightlyRounded := !(spineAngle < 160.0) && spineAngle < 170.0,
      shallowHinge := Distance(o, hipMid, shoulderMid) < TorsoLength * 0.8,
      hipsStraightDown := AbsReal(hipMid.x - ankleMid.x) < HipOverFeetTolerance,
      kneesForward := kneeMid.x > ankleMid.x + KneeTravelTolerance,
      weightAway := AbsReal(shoulderMid.x - ankleMid.x) > BarPathTolerance)
  }

  /** The mistakes of the checks that fired, in the order the source checks them. */
  function Listed(c: Checks): seq<Mistake> {
    Push(c.backRounded, BackRounded,
    Push(c.backSlightlyRounded, BackSlightlyRounded,
    Push(c.shallowHinge, ShallowHinge,
    Push(c.hipsStraightDown, HipsStraightDown,
    Push(c.kneesForward, KneesForward,
    Push(c.weightAway, WeightAway, []))))))
  }

  /** A mistake is reported exactly when its check fires; a back mistake is reported first. */
  lemma Reported(c: Checks)
    ensures var ms := Listed(c);
      && (BackRounded in ms <==> c.backRounded)
      && (BackSlightlyRounded in ms <==> c.backSlightlyRounded)
      && (ShallowHinge in ms <==> c.shallowHinge)
      && (c.backRounded ==> ms[0] == BackRounded)
      && (!c.backRounded && c.backSlightlyRounded ==> ms[0] == BackSlightlyRounded)
      && (HipsStraightDown in ms <==> c.hipsStraightDown) && (KneesForward in ms <==> c.kneesForward)
      && (WeightAway in ms <==> c.weightAway)
  {
    ReportedBack(c);
    ReportedBackFirst(c);
    ReportedHinge(c);
    ReportedBar(c);
  }

  lemma ReportedBack(c: Checks)
    ensures && (BackRounded in Listed(c) <==> c.backRounded)
            && (BackSlightlyRounded in Listed(c) <==> c.backSlightlyRounded)
  {
  }

  lemma ReportedBackFirst(c: Checks)
    ensures c.backRounded ==> Listed(c)[0] == BackRounded
    ensures !c.backRounded && c.backSlightlyRounded ==> Listed(c)[0] == BackSlightlyRounded
  {
  }

  lemma ReportedHinge(c: Checks)
    ensures (ShallowHinge in Listed(c) <==> c.shallowHinge) && (HipsStraightDown in Listed(c) <==> c.hipsStraightDown)
  {
  }

  lemma ReportedBar(c: Checks)
    ensures (KneesForward in Listed(c) <==> c.kneesForward) && (WeightAway in Listed(c) <==> c.weightAway)
  {
  }

  /** `analyzeDeadlift(keypoints, previousState)` as written: the status comes from the score
      bands alone. */
  function Analyze(o: Oracle, kps: seq<Keypoint>, previous: Option<AnalyzerState>): (r: Analysis)
    requires Sound(o) && IsFrame(kps)
    ensures Consistent(r)
    ensures PoseQuality(kps) < QualityThreshold <==> IsGated(r, PoseQuality(kps))
    ensures PoseQuality(kps) >= QualityThreshold ==>
      && r.confidence == PoseQuality(kps)
      && r.phase == Some(Lifting)
      && r.state == Some(DeadliftState(ShoulderMid(kps), HipMid(kps), AnkleMid(kps)))
      && (BackRounded in r.mistakes <==> SpineAngle(o, kps) < 160.0)
      && (BackSlightlyRounded in r.mistakes <==> 160.0 <= SpineAngle(o, kps) < 170.0)
      && (ShallowHinge in r.mistakes <==> Distance(o, HipMid(kps), ShoulderMid(kps)) < 0.24)
      && (BackRounded in r.mistakes ==> r.mistakes[0] == BackRounded)
      && (BackSlightlyRounded in r.mistakes ==> r.mistakes[0] == BackSlightlyRounded)
  {
    var quality := PoseQuality(kps);
    if quality < QualityThreshold then
      Gated(quality)
    else
      var c := Check(o, kps);
      Reported(c);
      var state := DeadliftState(ShoulderMid(kps), HipMid(kps), AnkleMid(kps));
      Graded(Listed(c), Lifting, quality, state)
  }

  /** As written, a critically rounded back on an otherwise clean lift costs 35 points and is
      reported as a mere warning: the `error` status set by the rounding rule is replaced by the
      score bands. */
  lemma RoundedBackOnlyWarns(o: Oracle, kps: seq<Keypoint>, previous: Option<AnalyzerState>)
    requires Sound(o) && IsFrame(kps)
    ensures var r := Analyze(o, kps, previous);
      r.mistakes == [BackRounded] ==> r.score == 65 && r.status == Warning
  {
    var r := Analyze(o, kps, previous);
    if r.mistakes == [BackRounded] {
      LoneRoundedBack(r);
    }
  }

  /** Any consistent result listing only a rounded back scores 65, which the bands call a warning. */
  lemma LoneRoundedBack(r: Analysis)
    requires Consistent(r) && r.mistakes == [BackRounded]
    ensures r.score == 65 && r.status == Warning
  {
    assert Deducted(r.mistakes) == Weight(BackRounded) + Deducted([]);
  }

  /** The status the rounding rule means to give: `error` whenever the back is critically
      rounded, whatever the score; otherwise the score bands. */
  function IntendedStatus(r: Analysis): (s: Status)
    ensures s == Error <==> BackRounded in r.mistakes || StatusFor(r.score) == Error
  {
    if BackRounded in r.mistakes then Error else StatusFor(r.score)
  }

  /** `analyzeDeadlift` with the rounded-back status kept: everything as written except that a
      critically rounded back always reports `error`. */
  function AnalyzeIntended(o: Oracle, kps: seq<Keypoint>, previous: Option<AnalyzerState>): (r: Analysis)
    requires Sound(o) && IsFrame(kps)
    ensures r.status != Info
    ensures r.status == Error <==> BackRounded in r.mistakes || r.score < 60
    ensures r.status == Perfect <==> r.mistakes == []
    ensures BackRounded !in r.mistakes ==> r.status == StatusFor(r.score)
  {
    var written := Analyze(o, kps, previous);
    IntendedKeeps(written);
    written.(status := IntendedStatus(written))
  }

  /** On a consistent analysis, the intended status is `error` exactly for a rounded back or a
      failing score, and `perfect` still exactly when nothing is listed; nothing but the status
      changes. */
  lemma IntendedKeeps(w: Analysis)
    requires Consistent(w)
    ensures var r := w.(status := IntendedStatus(w));
      && r.score == w.score && r.mistakes == w.mistakes && r.confidence == w.confidence
      && r.phase == w.phase && r.state == w.state
      && r.status != Info
      && (r.status == Error <==> BackRounded in w.mistakes || w.score < 60)
      && (r.status == Perfect <==> w.mistakes == [])
      && (BackRounded !in w.mistakes ==> r.status == StatusFor(w.score))
  {
  }

  /** The corrected analysis differs from the written one only in the status of a critically
      rounded back, and there it is always `error`. */
  lemma IntendedOnlyFixesStatus(o: Oracle, kps: seq<Keypoint>, previous: Option<AnalyzerState>)
    requires Sound(o) && IsFrame(kps)
    ensures var w := Analyze(o, kps, previous);
      var r := AnalyzeIntended(o, kps, previous);
      && r.score == w.score && r.mistakes == w.mistakes && r.confidence == w.confidence
      && r.phase == w.phase && r.state == w.state
      && (r.status != w.status ==> BackRounded in r.mistakes && r.status == Error)
      && (r.mistakes == [BackRounded] ==> r.status == Error && w.status == Warning)
  {
    RoundedBackOnlyWarns(o, kps, previous);
  }
}

=== FILE: format.dfy ===
/** The duration and timer formatting helpers (helpers.js `formatDuration`, `formatTimer`),
    each with a reader that recovers the number from the text. */
module Format {
  import opened Wrappers
  import opened Text

  predicate EndsWith(s: string, suffix: string) {
    |suffix| <= |s| && s[|s| - |suffix|..] == suffix
  }

  /** The index of the first `c` in `s`. */
  function IndexOf(s: string, c: char): (r: Option<nat>)
    ensures r.Some? ==> r.value < |s| && s[r.value] == c
    ensures r.Some? ==> forall i :: 0 <= i < r.value ==> s[i] != c
    ensures r.None? ==> forall i :: 0 <= i < |s| ==> s[i] != c
  {
    if s == [] then None
    else if s[0] == c then Some(0)
    else match IndexOf(s[1..], c)
      case None => None
      case Some(k) => Some(k + 1)
  }

  /** A numeral of a number below 100 has at most two digits. */
  lemma ShortNumeral(n: nat)
    requires n < 100
    ensures |NatToString(n)| <= 2
  {
    if n >= 10 {
      assert NatToString(n) == NatToString(n / 10) + [DigitChar(n % 10)];
    }
  }

  // ---------------------------------------------------------------------------
  // formatDuration
  // ---------------------------------------------------------------------------

  /** `formatDuration(minutes)` for whole minutes: `0 min` for zero, `N min` below an hour,
      otherwise `Hh Mm`, or just `Hh` on the hour. */
  function FormatDuration(minutes: int): (s: string)
    ensures minutes < 60 ==> EndsWith(s, " min")
    ensures minutes >= 60 ==> |s| >= 2 && (s[|s| - 1] == 'h' || s[|s| - 1] == 'm')
    // the minutes part is left out exactly on the hour
    ensures minutes >= 60 ==> (s[|s| - 1] == 'h' <==> minutes % 60 == 0)
  {
    if minutes == 0 then "0 min"
    else if minutes < 60 then
      var n := IntToString(minutes);
      assert (n + " min")[|n|..] == " min";
      n + " min"
    else
      var hours := minutes / 60;
      var remainingMinutes := minutes % 60;
      if remainingMinutes > 0 then NatToString(hours) + "h " + NatToString(remainingMinutes) + "m"
      else NatToString(hours) + "h"
  }

  /** A non-empty run of decimal digits. */
  predicate Numeral(s: string) {
    |s| >= 1 && AllDigits(s)
  }

  /** Reads back a text `FormatDuration` produces, as a number of minutes. */
  function ReadDuration(s: string): Option<int> {
    if EndsWith(s, " min") then
      var n := s[..|s| - 4];
      if Numeral(n) then Some(ParseNat(n)) else None
    else match IndexOf(s, 'h')
      case None => None
      case Some(k) => ReadHours(s[..k], s[k + 1..])
  }

  /** The `Hh` or `Hh Mm` form, split at the `h`. */
  function ReadHours(hours: string, rest: string): Option<int> {
    if !Numeral(hours) then None
    else if rest == [] then Some(ParseNat(hours) * 60)
    else if |rest| >= 3 && rest[0] == ' ' && rest[|rest| - 1] == 'm' && Numeral(rest[1..|rest| - 1]) then
      Some(ParseNat(hours) * 60 + ParseNat(rest[1..|rest| - 1]))
    else None
  }

  lemma ReadMinutesForm(n: nat)
    ensures ReadDuration(NatToString(n) + " min") == Some(n)
  {
    var t := NatToString(n);
    var s := t + " min";
    assert s[|s| - 4..] == " min";
    assert s[..|s| - 4] == t;
    ParseNatToString(n);
  }

  lemma FirstH(h: string, tail: string)
    requires Numeral(h)
    ensures IndexOf(h + "h" + tail, 'h') == Some(|h|)
    decreases |h|
  {
    if |h| > 1 {
      assert (h + "h" + tail)[1..] == h[1..] + "h" + tail;
      FirstH(h[1..], tail);
    }
  }

  lemma ReadHoursForm(hours: nat, tail: string)
    requires |tail| >= 1 ==> tail[|tail| - 1] == 'm'
    ensures ReadDuration(NatToString(hours) + "h" + tail) == ReadHours(NatToString(hours), tail)
  {
    var h := NatToString(hours);
    var s := h + "h" + tail;
    assert s[|s| - 1] == 'h' || s[|s| - 1] == 'm';
    FirstH(h, tail);
    assert s[..|h|] == h;
    assert s[|h| + 1..] == tail;
  }

  /** A minutes part after the `h` reads as hours times sixty plus those minutes. */
  lemma ReadMinutesTail(hs: string, m: string)
    requires Numeral(hs) && Numeral(m)
    ensures ReadHours(hs, " " + m + "m") == Some(ParseNat(hs) * 60 + ParseNat(m))
  {
    var tail := " " + m + "m";
    assert tail[1..|tail| - 1] == m;
  }

  /** The `Hh Mm` form reads back as the minutes it stands for. */
  lemma HoursMinutesForm(h: nat, r: nat, minutes: nat)
    requires 0 < r < 60 && minutes == h * 60 + r
    ensures ReadDuration(NatToString(h) + "h " + NatToString(r) + "m") == Some(minutes)
  {
    var hs := NatToString(h);
    var m := NatToString(r);
    var tail := " " + m + "m";
    assert hs + "h " + m + "m" == hs + "h" + tail;
    calc {
      ReadDuration(hs + "h" + tail);
    == { ReadHoursForm(h, tail); }
      ReadHours(hs, tail);
    == { ReadMinutesTail(hs, m); }
      Some(ParseNat(hs) * 60 + ParseNat(m));
    == { ParseNatToString(h); ParseNatToString(r); }
      Some(minutes);
    }
  }

  /** The `Hh` form reads back as the minutes it stands for. */
  lemma WholeHoursForm(h: nat, minutes: nat)
    requires minutes == h * 60
    ensures ReadDuration(NatToString(h) + "h") == Some(minutes)
  {
    var hs := NatToString(h);
    assert hs + "h" + "" == hs + "h";
    ParseNatToString(h);
    calc {
      ReadDuration(hs + "h" + "");
    == { ReadHoursForm(h, ""); }
      ReadHours(hs, "");
    ==
      Some(minutes);
    }
  }

  /** Nothing is lost: the text of a whole, non-negative number of minutes reads back as it. */
  lemma DurationRoundTrip(minutes: nat)
    ensures ReadDuration(FormatDuration(minutes)) == Some(minutes)
  {
    if minutes < 60 {
      assert FormatDuration(minutes) == NatToString(minutes) + " min" by {
        if minutes == 0 {
          assert NatToString(0) == "0";
        }
      }
      ReadMinutesForm(minutes);
    } else {
      var h: nat, r: nat := minutes / 60, minutes % 60;
      if r > 0 {
        assert FormatDuration(minutes) == NatToString(h) + "h " + NatToString(r) + "m";
        HoursMinutesForm(h, r, minutes);
      } else {
        assert FormatDuration(minutes) == NatToString(h) + "h";
        WholeHoursForm(h, minutes);
      }
    }
  }

  // ---------------------------------------------------------------------------
  // formatTimer
  // ---------------------------------------------------------------------------

  /** `formatTimer(seconds)`: minutes and seconds, each padded to two digits. For a negative
      input the minutes are floored and the seconds keep the sign of JavaScript's `%`. */
  function FormatTimer(seconds: int): (s: string)
    ensures seconds >= 0 ==> |s| == |PadZeros(NatToString(seconds / 60), 2)| + 3 && s[|s| - 3] == ':'
  {
    var m := PadZeros(IntToString(seconds / 60), 2);
    var r := PadZeros(IntToString(JsRem(seconds, 60)), 2);
    TimerFields(seconds);
    Colon(m, r);
    m + ":" + r
  }

  /** For a non-negative input the minutes field is the plain numeral and the seconds field
      takes exactly two characters. */
  lemma TimerFields(seconds: int)
    ensures seconds >= 0 ==> IntToString(seconds / 60) == NatToString(seconds / 60)
    ensures seconds >= 0 ==> |PadZeros(IntToString(JsRem(seconds, 60)), 2)| == 2
  {
    if seconds >= 0 {
      ShortNumeral(seconds % 60);
    }
  }

  lemma Colon(m: string, r: string)
    ensures |r| == 2 ==> var s := m + ":" + r; |s| == |m| + 3 && s[|s| - 3] == ':'
  {
  }

  /** Reads back a `MM:SS` text as a number of seconds. */
  function ReadTimer(s: string): Option<int> {
    if |s| >= 4 && s[|s| - 3] == ':' then ReadFields(s[..|s| - 3], s[|s| - 2..]) else None
  }

  function ReadFields(minutes: string, seconds: string): Option<int> {
    if Numeral(minutes) && Numeral(seconds) then Some(ParseNat(minutes) * 60 + ParseNat(seconds))
    else None
  }

  lemma SplitTimer(m: string, r: string)
    requires |m| >= 1 && |r| == 2
    ensures ReadTimer(m + ":" + r) == ReadFields(m, r)
  {
    var s := m + ":" + r;
    assert s[..|s| - 3] == m;
    assert s[|s| - 2..] == r;
  }

  lemma TimerText(seconds: nat)
    ensures FormatTimer(seconds)
      == PadZeros(NatToString(seconds / 60), 2) + ":" + PadZeros(NatToString(seconds % 60), 2)
  {
    var q, rem := seconds / 60, seconds % 60;
    assert JsRem(seconds, 60) == rem;
    assert IntToString(q) == NatToString(q);
    assert IntToString(rem) == NatToString(rem);
  }

  lemma DivMod60(n: nat)
    ensures n / 60 * 60 + n % 60 == n
  {
  }

  /** A numeral padded to two digits reads back as the number: at most one zero is added. */
  lemma PaddedValue(x: nat)
    ensures Numeral(PadZeros(NatToString(x), 2))
    ensures ParseNat(PadZeros(NatToString(x), 2)) == x
  {
    var t := NatToString(x);
    ParseNatToString(x);
    if |t| < 2 {
      assert PadZeros(t, 2) == "0" + t;
      ParseNatLeadingZero(t);
    }
  }

  lemma PaddedWidth(x: nat)
    requires x < 100
    ensures |PadZeros(NatToString(x), 2)| == 2
  {
    ShortNumeral(x);
  }

  lemma FieldsValue(m: string, r: string, a: nat, b: nat, n: nat)
    requires Numeral(m) && Numeral(r) && ParseNat(m) == a && ParseNat(r) == b && n == a * 60 + b
    ensures ReadFields(m, r) == Some(n)
  {
  }

  lemma TimerFieldsRoundTrip(q: nat, rem: nat, seconds: nat)
    requires rem < 60 && seconds == q * 60 + rem
    ensures ReadTimer(PadZeros(NatToString(q), 2) + ":" + PadZeros(NatToString(rem), 2)) == Some(seconds)
  {
    var m := PadZeros(NatToString(q), 2);
    var r := PadZeros(NatToString(rem), 2);
    PaddedValue(q);
    PaddedValue(rem);
    PaddedWidth(rem);
    calc {
      ReadTimer(m + ":" + r);
    == { SplitTimer(m, r); }
      ReadFields(m, r);
    == { FieldsValue(m, r, q, rem, seconds); }
      Some(seconds);
    }
  }

  /** Nothing is lost: the timer text of a non-negative number of seconds reads back as it. */
  lemma TimerRoundTrip(seconds: nat)
    ensures ReadTimer(FormatTimer(seconds)) == Some(seconds)
  {
    var q: nat, rem: nat := seconds / 60, seconds % 60;
    var text := PadZeros(NatToString(q), 2) + ":" + PadZeros(NatToString(rem), 2);
    TimerText(seconds);
    assert FormatTimer(seconds) == text;
    DivMod60(seconds);
    TimerFieldsRoundTrip(q, rem, seconds);
  }

  /** The seconds field of the timer text of a non-negative number of seconds is the remainder
      below 60. */
  lemma TimerSecondsField(seconds: nat)
    ensures var s := FormatTimer(seconds);
      |s| >= 5 && Numeral(s[|s| - 2..]) && ParseNat(s[|s| - 2..]) == seconds % 60 < 60
  {
    var m := PadZeros(NatToString(seconds / 60), 2);
    var r := PadZeros(NatToString(seconds % 60), 2);
    TimerText(seconds);
    PaddedValue(seconds % 60);
    PaddedWidth(seconds % 60);
    LastField(m, r);
  }

  lemma LastField(m: string, r: string)
    requires |r| == 2
    ensures var s := m + ":" + r; s[|s| - 2..] == r
  {
  }
}

=== FILE: geometry.dfy ===
/** Points, PoseNet keypoints, and the two geometric measurements the analyzers use
    (ExerciseAnalyzer.calculateAngle and ExerciseAnalyzer.calculateDistance). */
module Geometry {
  import opened Wrappers

  /** A position in coordinates normalised to the video frame. */
  datatype Point = Point(x: real, y: real)

  /** One detected body point: its normalised position and the detector's confidence. */
  datatype Keypoint = Keypoint(x: real, y: real, score: real)

  function At(k: Keypoint): Point {
    Point(k.x, k.y)
  }

  /** The midpoint the analyzers build for a left/right pair. */
  function Midpoint(a: Point, b: Point): (m: Point)
    ensures m.x - a.x == b.x - m.x && m.y - a.y == b.y - m.y
  {
    Point((a.x + b.x) / 2.0, (a.y + b.y) / 2.0)
  }

  /** `Math.PI` as a double. */
  const PI: real := 3.141592653589793

  /** `Math.atan2` (radians) and `Math.sqrt`, which the model does not compute. */
  datatype Oracle = Oracle(atan2: (real, real) -> real, sqrt: real -> real)

  /** What the model assumes of the oracle: `atan2` lies in [-PI, PI] and `sqrt` of a
      non-negative number is non-negative. */
  ghost predicate Sound(o: Oracle) {
    && (forall y, x :: -PI <= o.atan2(y, x) <= PI)
    && (forall v :: 0.0 <= v ==> 0.0 <= o.sqrt(v))
  }

  /** The angle at `b` between the rays to `a` and `c`, in degrees: the absolute difference of
      the two `atan2` bearings, folded to `360 - angle` when it exceeds 180. */
  function Angle(o: Oracle, a: Point, b: Point, c: Point): (r: real)
    requires Sound(o)
    ensures 0.0 <= r <= 180.0
  {
    var radians := o.atan2(c.y - b.y, c.x - b.x) - o.atan2(a.y - b.y, a.x - b.x);
    DegreesFolded(radians)
  }

  /** `|radians * 180 / PI|`, folded into [0, 180]. */
  function DegreesFolded(radians: real): (r: real)
    requires -2.0 * PI <= radians <= 2.0 * PI
    ensures 0.0 <= r <= 180.0
    ensures r == AbsReal(radians) * 180.0 / PI || r == 360.0 - AbsReal(radians) * 180.0 / PI
  {
    var angle := AbsReal(radians * 180.0 / PI);
    assert angle == AbsReal(radians) * 180.0 / PI;
    if angle > 180.0 then 360.0 - angle else angle
  }

  /** The angle does not depend on which ray is named first. */
  lemma AngleSymmetric(o: Oracle, a: Point, b: Point, c: Point)
    requires Sound(o)
    ensures Angle(o, a, b, c) == Angle(o, c, b, a)
  {
    var r1 := o.atan2(c.y - b.y, c.x - b.x) - o.atan2(a.y - b.y, a.x - b.x);
    var r2 := o.atan2(a.y - b.y, a.x - b.x) - o.atan2(c.y - b.y, c.x - b.x);
    assert r2 == -r1;
    assert AbsReal(r2 * 180.0 / PI) == AbsReal(r1 * 180.0 / PI);
  }

  /** Euclidean distance, `sqrt(dx^2 + dy^2)`. */
  function Distance(o: Oracle, a: Point, b: Point): (d: real)
    requires Sound(o)
    ensures d >= 0.0
  {
    var dx := a.x - b.x;
    var dy := a.y - b.y;
    assert dx * dx >= 0.0 && dy * dy >= 0.0;
    o.sqrt(dx * dx + dy * dy)
  }

  /** Distance reads the two points' offsets symmetrically. */
  lemma DistanceSymmetric(o: Oracle, a: Point, b: Point)
    requires Sound(o)
    ensures Distance(o, a, b) == Distance(o, b, a)
  {
    assert (a.x - b.x) * (a.x - b.x) == (b.x - a.x) * (b.x - a.x);
    assert (a.y - b.y) * (a.y - b.y) == (b.y - a.y) * (b.y - a.y);
  }
}

=== FILE: helpers.dfy ===
/** The numeric and validation helpers of helpers.js: `calculateVolume`, `calculate1RM`,
    `validatePassword`, `validateWorkoutName` and `getColorByIndex`. */
module Helpers {
  import opened Wrappers
  import opened Text

  // ---------------------------------------------------------------------------
  // calculateVolume
  // ---------------------------------------------------------------------------

  /** A set's weight as `calculateVolume` may find it: a bare number, a `{ value, unit }`
      record, or nothing at all. */
  datatype Load = Bare(amount: real) | Tagged(value: real, unit: string) | Absent

  /** The number a load stands for; an absent load stands for nothing. */
  function Amount(l: Load): real {
    match l
    case Bare(a) => a
    case Tagged(v, _) => v
    case Absent => 0.0
  }

  /** JavaScript truthiness of the weight field: a record is always truthy, a number unless it
      is zero. */
  predicate Truthy(l: Load) {
    match l
    case Bare(a) => a != 0.0
    case Tagged(_, _) => true
    case Absent => false
  }

  datatype LoggedSet = LoggedSet(isCompleted: bool, weight: Load, reps: int)

  /** One set's contribution to the running total of `calculateVolume`. */
  function Contribution(s: LoggedSet): real {
    if s.isCompleted && Truthy(s.weight) && s.reps != 0 then Amount(s.weight) * s.reps as real else 0.0
  }

  /** `calculateVolume(sets)`: the left-to-right sum of the contributions. */
  function CalculateVolume(sets: seq<LoggedSet>): (v: real)
    ensures (forall i :: 0 <= i < |sets| ==> !sets[i].isCompleted) ==> v == 0.0
    ensures (forall i :: 0 <= i < |sets| ==> Amount(sets[i].weight) >= 0.0 && sets[i].reps >= 0) ==> v >= 0.0
    decreases |sets|
  {
    if sets == [] then 0.0
    else CalculateVolume(sets[..|sets| - 1]) + Contribution(sets[|sets| - 1])
  }

  /** The volume of the completed sets: weight times reps, with no truthiness test. */
  function CompletedVolume(sets: seq<LoggedSet>): real
    decreases |sets|
  {
    if sets == [] then 0.0
    else
      var s := sets[|sets| - 1];
      CompletedVolume(sets[..|sets| - 1]) + if s.isCompleted then Amount(s.weight) * s.reps as real else 0.0
  }

  /** The truthiness tests on weight and reps change nothing: a zero or absent weight and zero
      reps contribute nothing anyway, so the volume is the completed sets' weight times reps. */
  lemma {:induction false} VolumeIgnoresTruthiness(sets: seq<LoggedSet>)
    ensures CalculateVolume(sets) == CompletedVolume(sets)
    decreases |sets|
  {
    if sets != [] {
      VolumeIgnoresTruthiness(sets[..|sets| - 1]);
    }
  }

  /** Volume adds up over consecutive runs of sets. */
  lemma {:induction false} VolumeAppend(a: seq<LoggedSet>, b: seq<LoggedSet>)
    ensures CalculateVolume(a + b) == CalculateVolume(a) + CalculateVolume(b)
    decreases |b|
  {
    if b == [] {
      assert a + b == a;
    } else {
      assert (a + b)[..|a + b| - 1] == a + b[..|b| - 1];
      VolumeAppend(a, b[..|b| - 1]);
    }
  }

  // ---------------------------------------------------------------------------
  // calculate1RM
  // ---------------------------------------------------------------------------

  /** The Epley estimate of a one-repetition maximum. */
  function Epley(weight: real, reps: int): real {
    weight * (1.0 + reps as real / 30.0)
  }

  /** `calculate1RM(weight, reps)`: the weight itself for a single, otherwise the Epley
      estimate rounded to a whole number. */
  function Calculate1RM(weight: real, reps: int): (r: real)
    ensures reps == 1 ==> r == weight
    ensures reps != 1 ==> r == r.Floor as real && Epley(weight, reps) - 0.5 < r <= Epley(weight, reps) + 0.5
  {
    if reps == 1 then weight else Round(Epley(weight, reps)) as real
  }

  lemma RoundMonotone(x: real, y: real)
    requires x <= y
    ensures Round(x) <= Round(y)
  {
  }

  /** A heavier set never estimates a lower maximum. */
  lemma OneRepMaxMonotoneInWeight(w1: real, w2: real, reps: int)
    requires w1 <= w2 && reps >= 0
    ensures Calculate1RM(w1, reps) <= Calculate1RM(w2, reps)
  {
    if reps != 1 {
      assert Epley(w1, reps) <= Epley(w2, reps) by {
        assert w1 * (1.0 + reps as real / 30.0) <= w2 * (1.0 + reps as real / 30.0);
      }
      RoundMonotone(Epley(w1, reps), Epley(w2, reps));
    }
  }

  /** With a non-negative weight, more repetitions (past the single) never estimate less. */
  lemma OneRepMaxMonotoneInReps(weight: real, r1: int, r2: int)
    requires weight >= 0.0 && 2 <= r1 <= r2
    ensures Calculate1RM(weight, r1) <= Calculate1RM(weight, r2)
  {
    assert Epley(weight, r1) <= Epley(weight, r2) by {
      assert 1.0 + r1 as real / 30.0 <= 1.0 + r2 as real / 30.0;
    }
    RoundMonotone(Epley(weight, r1), Epley(weight, r2));
  }

  // ---------------------------------------------------------------------------
  // Validators
  // ---------------------------------------------------------------------------

  /** `validatePassword`: at least six characters. */
  function ValidatePassword(password: string): (ok: bool)
    ensures ok <==> |password| >= 6
  {
    |password| >= 6
  }

  /** `validateWorkoutName`: something other than white space, and at most 100 characters in
      all (the white space counts towards the limit). */
  function ValidateWorkoutName(name: string): (ok: bool)
    ensures ok <==> (exists i :: 0 <= i < |name| && !IsWhitespace(name[i])) && |name| <= 100
  {
    TrimNonEmptyIff(name);
    |Trim(name)| >= 1 && |name| <= 100
  }

  // ---------------------------------------------------------------------------
  // getColorByIndex
  // ---------------------------------------------------------------------------

  const Palette: seq<string> :=
    ["#3b82f6", "#22c55e", "#fbbf24", "#a855f7", "#ef4444", "#06b6d4", "#f97316", "#8b5cf6"]

  /** `getColorByIndex(index)`: the palette entry at JavaScript's `index % 8`, which is
      `undefined` for a negative remainder (a multiple of 8 gives `-0`, which indexes entry 0). */
  function GetColorByIndex(index: int): (c: Option<string>)
    ensures index >= 0 ==> c == Some(Palette[index % 8])
    ensures index < 0 ==> (c.Some? <==> index % 8 == 0)
    ensures c.Some? ==> c.value in Palette
  {
    var i := JsRem(index, |Palette|);
    if 0 <= i then Some(Palette[i]) else None
  }

  /** The colours repeat every eight indices. */
  lemma ColorsCycle(index: int)
    requires index >= 0
    ensures GetColorByIndex(index + 8) == GetColorByIndex(index)
  {
  }
}

=== FILE: press.dfy ===
/** ExerciseAnalyzer.analyzeDumbbellPress: arm symmetry, shoulder level, elbow stacking,
    elbow flare and core lean of a dumbbell press. */
module Press {
  import opened Wrappers
  import opened Geometry
  import opened Scoring

  const SymmetryTolerance: real := 15.0
  const ShoulderLevelTolerance: real := 0.05
  const StackTolerance: real := 0.06
  const CoreLeanTolerance: real := 0.08

  /** `extended` above 150 degrees of average elbow angle, `lowered` below 90, `transition` between. */
  function PhaseOf(avgElbowAngle: real): (p: Phase)
    ensures p == Extended <==> avgElbowAngle > 150.0
    ensures p == Lowered <==> avgElbowAngle < 90.0
    ensures p == Transition <==> 90.0 <= avgElbowAngle <= 150.0
  {
    if avgElbowAngle > 150.0 then Extended
    else if avgElbowAngle < 90.0 then Lowered
    else Transition
  }

  /** How far each elbow sits outside its shoulder, horizontally. */
  function LeftFlare(kps: seq<Keypoint>): real
    requires IsFrame(kps)
  {
    AbsReal(P(kps, LeftElbow).x - P(kps, LeftShoulder).x)
  }

  function RightFlare(kps: seq<Keypoint>): real
    requires IsFrame(kps)
  {
    AbsReal(P(kps, RightElbow).x - P(kps, RightShoulder).x)
  }

  /** Which press rules fire on a frame. */
  datatype Checks = Checks(
    armsAsymmetric: bool, shouldersUneven: bool, elbowsNotUnderWrists: bool,
    elbowsTooWide: bool, lean: bool)

  /** The press checks, with the thresholds of the source. */
  function Check(o: Oracle, kps: seq<Keypoint>): (c: Checks)
    requires Sound(o) && IsFrame(kps)
    ensures c.armsAsymmetric <==> AbsReal(LeftElbowAngle(o, kps) - RightElbowAngle(o, kps)) > SymmetryTolerance
    // elbow stacking is judged only at the bottom of the press
    ensures c.elbowsNotUnderWrists ==> PhaseOf(AvgElbowAngle(o, kps)) == Lowered
    // "optimal flare" is 30% of shoulder width and the rule allows half as much again
    ensures c.elbowsTooWide <==>
      LeftFlare(kps) > 0.45 * ShoulderWidth(o, kps) || RightFlare(kps) > 0.45 * ShoulderWidth(o, kps)
  {
    var leftElbowAngle := LeftElbowAngle(o, kps);
    var rightElbowAngle := RightElbowAngle(o, kps);
    var phase := PhaseOf(AvgElbowAngle(o, kps));
    var shoulderMid := ShoulderMid(kps);
    var hipMid := HipMid(kps);
    var optimalFlare := ShoulderWidth(o, kps) * 0.3;
    Checks(
      armsAsymmetric := AbsReal(leftElbowAngle - rightElbowAngle) > SymmetryTolerance,
      shouldersUneven := AbsReal(P(kps, LeftShoulder).y - P(kps, RightShoulder).y) > ShoulderLevelTolerance,
      elbowsNotUnderWrists := phase == Lowered
        && (AbsReal(P(kps, LeftElbow).x - P(kps, LeftWrist).x) > StackTolerance
            || AbsReal(P(kps, RightElbow).x - P(kps, RightWrist).x) > StackTolerance),
      elbowsTooWide := LeftFlare(kps) > optimalFlare * 1.5 || RightFlare(kps) > optimalFlare * 1.5,
      lean := AbsReal(shoulderMid.x - hipMid.x) > CoreLeanTolerance)
  }

  /** The mistakes of the checks that fired, in the order the source checks them. */
  function Listed(c: Checks): seq<Mistake> {
    Push(c.armsAsymmetric, ArmsAsymmetric,
    Push(c.shouldersUneven, ShouldersUneven,
    Push(c.elbowsNotUnderWrists, ElbowsNotUnderWrists,
    Push(c.elbowsTooWide, ElbowsTooWide,
    Push(c.lean, PressLean, [])))))
  }

  /** A mistake is reported exactly when its check fires. */
  lemma Reported(c: Checks)
    ensures var ms := Listed(c);
      && (ArmsAsymmetric in ms <==> c.armsAsymmetric) && (ShouldersUneven in ms <==> c.shouldersUneven)
      && (ElbowsNotUnderWrists in ms <==> c.elbowsNotUnderWrists)
      && (ElbowsTooWide in ms <==> c.elbowsTooWide) && (PressLean in ms <==> c.lean)
  {
    ReportedSymmetry(c);
    ReportedElbows(c);
    ReportedLean(c);
  }

  lemma ReportedSymmetry(c: Checks)
    ensures (ArmsAsymmetric in Listed(c) <==> c.armsAsymmetric) && (ShouldersUneven in Listed(c) <==> c.shouldersUneven)
  {
  }

  lemma ReportedElbows(c: Checks)
    ensures (ElbowsNotUnderWrists in Listed(c) <==> c.elbowsNotUnderWrists) && (ElbowsTooWide in Listed(c) <==> c.elbowsTooWide)
  {
  }

  lemma ReportedLean(c: Checks)
    ensures PressLean in Listed(c) <==> c.lean
  {
  }

  /** All five press mistakes together cost 85 points, so a press score never reaches zero. */
  lemma WithinBudget(c: Checks)
    ensures Deducted(Listed(c)) <= 85
  {
    var l2 := Push(c.elbowsNotUnderWrists, ElbowsNotUnderWrists,
              Push(c.elbowsTooWide, ElbowsTooWide, Push(c.lean, PressLean, [])));
    var l1 := Push(c.shouldersUneven, ShouldersUneven, l2);
    LaterBudget(c);
    DeductedPushAtMost(c.shouldersUneven, ShouldersUneven, l2, 50);
    DeductedPushAtMost(c.armsAsymmetric, ArmsAsymmetric, l1, 70);
  }

  /** The last three rules cost at most 50 points together. */
  lemma LaterBudget(c: Checks)
    ensures Deducted(Push(c.elbowsNotUnderWrists, ElbowsNotUnderWrists,
                     Push(c.elbowsTooWide, ElbowsTooWide, Push(c.lean, PressLean, [])))) <= 50
  {
    var l4 := Push(c.lean, PressLean, []);
    var l3 := Push(c.elbowsTooWide, ElbowsTooWide, l4);
    DeductedPushAtMost(c.lean, PressLean, [], 0);
    DeductedPushAtMost(c.elbowsTooWide, ElbowsTooWide, l4, 15);
    DeductedPushAtMost(c.elbowsNotUnderWrists, ElbowsNotUnderWrists, l3, 30);
  }

  /** `analyzeDumbbellPress(keypoints, previousState)`; the previous state is not consulted. */
  function Analyze(o: Oracle, kps: seq<Keypoint>, previous: Option<AnalyzerState>): (r: Analysis)
    requires Sound(o) && IsFrame(kps)
    ensures Consistent(r)
    ensures PoseQuality(kps) < QualityThreshold <==> IsGated(r, PoseQuality(kps))
    ensures PoseQuality(kps) >= QualityThreshold ==>
      && r.confidence == PoseQuality(kps)
      && r.phase == Some(PhaseOf(AvgElbowAngle(o, kps)))
      && r.state == Some(PressState(ShoulderMid(kps), HipMid(kps), AvgElbowAngle(o, kps)))
      // the deductions never exceed 85, so the score is never clamped at zero
      && 15 <= r.score == 100 - Deducted(r.mistakes)
      && (ArmsAsymmetric in r.mistakes <==>
            AbsReal(LeftElbowAngle(o, kps) - RightElbowAngle(o, kps)) > SymmetryTolerance)
      && (ElbowsTooWide in r.mistakes <==>
            LeftFlare(kps) > 0.45 * ShoulderWidth(o, kps) || RightFlare(kps) > 0.45 * ShoulderWidth(o, kps))
    ensures ElbowsNotUnderWrists in r.mistakes ==> r.phase == Some(Lowered)
  {
    var quality := PoseQuality(kps);
    if quality < QualityThreshold then
      Gated(quality)
    else
      var c := Check(o, kps);
      Reported(c);
      WithinBudget(c);
      var state := PressState(ShoulderMid(kps), HipMid(kps), AvgElbowAngle(o, kps));
      Graded(Listed(c), PhaseOf(AvgElbowAngle(o, kps)), quality, state)
  }
}

=== FILE: pushup.dfy ===
/** ExerciseAnalyzer.analyzePushUp: body line, hip height, grip width, depth, elbow flare,
    head position and frame-to-frame stability of a push-up. */
module PushUp {
  import opened Wrappers
  import opened Geometry
  import opened Scoring

  const BodyLineTolerance: real := 0.08
  const HipBand: real := 0.05
  const ChestToHandGap: real := 0.05
  const NeckTolerance: real := 0.08
  const StabilityThreshold: real := 0.03

  /** `up` above 150 degrees of average elbow angle, `down` below 90, `transition` between. */
  function PhaseOf(avgElbowAngle: real): (p: Phase)
    ensures p == Up <==> avgElbowAngle > 150.0
    ensures p == Down <==> avgElbowAngle < 90.0
    ensures p == Transition <==> 90.0 <= avgElbowAngle <= 150.0
  {
    if avgElbowAngle > 150.0 then Up
    else if avgElbowAngle < 90.0 then Down
    else Transition
  }

  /** The hip height a straight body would have: 60% of the way from shoulders to ankles. */
  function ExpectedHipY(kps: seq<Keypoint>): real
    requires IsFrame(kps)
  {
    ShoulderMid(kps).y + (AnkleMid(kps).y - ShoulderMid(kps).y) * 0.6
  }

  /** Which push-up rules fire on a frame. */
  datatype Checks = Checks(
    bodyLine: bool, hipsSag: bool, hipsPiked: bool, handsTooClose: bool, handsTooWide: bool,
    notLowEnough: bool, elbowsFlared: bool, headNotNeutral: bool, swaying: bool)

  /** The push-up checks, with the thresholds of the source. */
  function Check(o: Oracle, kps: seq<Keypoint>, previous: Option<AnalyzerState>): (c: Checks)
    requires Sound(o) && IsFrame(kps)
    // depth is judged only at the bottom of the movement
    ensures c.notLowEnough ==> PhaseOf(AvgElbowAngle(o, kps)) == Down
    // sagging and piking hips are opposite sides of one band
    ensures !(c.hipsSag && c.hipsPiked)
    ensures !(c.handsTooClose && c.handsTooWide)
    // stability needs a previous frame and a phase other than transition
    ensures c.swaying ==> previous.Some? && PhaseOf(AvgElbowAngle(o, kps)) != Transition
  {
    var shoulderMid := ShoulderMid(kps);
    var hipMid := HipMid(kps);
    var ankleMid := AnkleMid(kps);
    var bodyLineDeviation := AbsReal((shoulderMid.y - ankleMid.y) - (hipMid.y - ankleMid.y));
    var expectedHipY := ExpectedHipY(kps);
    var handWidth := Distance(o, P(kps, LeftWrist), P(kps, RightWrist));
    var shoulderWidth := ShoulderWidth(o, kps);
    var phase := PhaseOf(AvgElbowAngle(o, kps));
    var handHeight := (P(kps, LeftWrist).y + P(kps, RightWrist).y) / 2.0;
    var avgElbowFlare := (AbsReal(P(kps, LeftElbow).x - P(kps, LeftShoulder).x)
                          + AbsReal(P(kps, RightElbow).x - P(kps, RightShoulder).x)) / 2.0;
    var neckAlignment := AbsReal(P(kps, Nose).y - shoulderMid.y);
    var tooClose := handWidth < shoulderWidth * 0.8;
    Checks(
      bodyLine := bodyLineDeviation > BodyLineTolerance,
      hipsSag := hipMid.y > expectedHipY + HipBand,
      hipsPiked := hipMid.y < expectedHipY - HipBand,
      handsTooClose := tooClose,
      handsTooWide := !tooClose && handWidth > shoulderWidth * 1.6,
      notLowEnough := phase == Down && !(shoulderMid.y - handHeight < ChestToHandGap),
      elbowsFlared := avgElbowFlare > shoulderWidth * 0.4,
      headNotNeutral := neckAlignment > NeckTolerance,
      swaying := previous.Some?
                 && Distance(o, shoulderMid, previous.value.shoulderMid) > StabilityThreshold
                 && phase != Transition)
  }

  /** The mistakes of the checks that fired, in the order the source checks them. */
  function Listed(c: Checks): seq<Mistake> {
    Push(c.bodyLine, BodyNotStraight,
    Push(c.hipsSag, HipsSag,
    Push(c.hipsPiked, HipsPiked,
    Push(c.handsTooClose, HandsTooClose,
    Push(c.handsTooWide, HandsTooWide,
    Push(c.notLowEnough, NotLowEnough,
    Push(c.elbowsFlared, ElbowsFlared,
    Push(c.headNotNeutral, HeadNotNeutral,
    Push(c.swaying, Swaying, [])))))))))
  }

  /** A mistake is reported exactly when its check fires. */
  lemma Reported(c: Checks)
    ensures var ms := Listed(c);
      && (BodyNotStraight in ms <==> c.bodyLine)
      && (HipsSag in ms <==> c.hipsSag) && (HipsPiked in ms <==> c.hipsPiked)
      && (HandsTooClose in ms <==> c.handsTooClose) && (HandsTooWide in ms <==> c.handsTooWide)
      && (NotLowEnough in ms <==> c.notLowEnough) && (ElbowsFlared in ms <==> c.elbowsFlared)
      && (HeadNotNeutral in ms <==> c.headNotNeutral) && (Swaying in ms <==> c.swaying)
  {
    ReportedLine(c);
    ReportedHips(c);
    ReportedHands(c);
    ReportedDepth(c);
    ReportedStability(c);
  }

  lemma ReportedLine(c: Checks)
    ensures BodyNotStraight in Listed(c) <==> c.bodyLine
  {
  }

  lemma ReportedHips(c: Checks)
    ensures (HipsSag in Listed(c) <==> c.hipsSag) && (HipsPiked in Listed(c) <==> c.hipsPiked)
  {
  }

  lemma ReportedHands(c: Checks)
    ensures (HandsTooClose in Listed(c) <==> c.handsTooClose) && (HandsTooWide in Listed(c) <==> c.handsTooWide)
  {
  }

  lemma ReportedDepth(c: Checks)
    ensures (NotLowEnough in Listed(c) <==> c.notLowEnough) && (ElbowsFlared in Listed(c) <==> c.elbowsFlared)
  {
  }

  lemma ReportedStability(c: Checks)
    ensures (HeadNotNeutral in Listed(c) <==> c.headNotNeutral) && (Swaying in Listed(c) <==> c.swaying)
  {
  }

  /** `analyzePushUp(keypoints, previousState)`. */
  function Analyze(o: Oracle, kps: seq<Keypoint>, previous: Option<AnalyzerState>): (r: Analysis)
    requires Sound(o) && IsFrame(kps)
    ensures Consistent(r)
    ensures PoseQuality(kps) < QualityThreshold <==> IsGated(r, PoseQuality(kps))
    ensures PoseQuality(kps) >= QualityThreshold ==>
      && r.confidence == PoseQuality(kps)
      && r.phase == Some(PhaseOf(AvgElbowAngle(o, kps)))
      && r.state == Some(PushUpState(ShoulderMid(kps), HipMid(kps), AnkleMid(kps)))
    ensures NotLowEnough in r.mistakes ==> r.phase == Some(Down)
    ensures !(HipsSag in r.mistakes && HipsPiked in r.mistakes)
    ensures !(HandsTooClose in r.mistakes && HandsTooWide in r.mistakes)
    ensures Swaying in r.mistakes ==> previous.Some? && r.phase != Some(Transition)
  {
    var quality := PoseQuality(kps);
    if quality < QualityThreshold then
      Gated(quality)
    else
      var c := Check(o, kps, previous);
      Reported(c);
      var state := PushUpState(ShoulderMid(kps), HipMid(kps), AnkleMid(kps));
      Graded(Listed(c), PhaseOf(AvgElbowAngle(o, kps)), quality, state)
  }
}

=== FILE: routines.dfy ===
/** The `pre('save')` hook of backend/models/Routine.js: the estimated duration of a routine and
    the merge of its exercises' muscles into `muscleGroups`, primary winning over secondary. */
module Routines {
  import opened Wrappers
  import opened Workouts

  /** One planned exercise: how many sets, the rest between them in seconds (`None` when the
      field is unset) and the referenced exercise when populated. */
  datatype Planned = Planned(targetSets: int, restTime: Option<int>, exercise: Option<Muscles>)

  const SecondsPerSet := 30
  const DefaultRest := 90
  const SetupMinutes := 10

  // ---------------------------------------------------------------------------
  // Estimated duration
  // ---------------------------------------------------------------------------

  /** `exercise.restTime || 90`: an unset rest and a rest of zero (falsy) both cost 90 seconds. */
  function RestOf(p: Planned): (rest: int)
    ensures p.restTime.None? || p.restTime == Some(0) ==> rest == DefaultRest
    ensures p.restTime.Some? && p.restTime.value != 0 ==> rest == p.restTime.value
  {
    match p.restTime
    case Some(r) => if r != 0 then r else DefaultRest
    case None => DefaultRest
  }

  /** The seconds of one exercise: its sets times a half-minute of work plus the rest. */
  function Seconds(p: Planned): int {
    p.targetSets * (SecondsPerSet + RestOf(p))
  }

  /** The running sum of the hook's loop over the exercises. */
  function TotalSeconds(ps: seq<Planned>): int
    decreases |ps|
  {
    if ps == [] then 0 else TotalSeconds(ps[..|ps| - 1]) + Seconds(ps[|ps| - 1])
  }

  /** The seconds rounded to the nearest minute (a half minute rounding up), plus ten minutes
      of setup and warm-up. */
  function Estimate(ps: seq<Planned>): (minutes: int)
    ensures (minutes - SetupMinutes) * 60 - 30 <= TotalSeconds(ps) < (minutes - SetupMinutes) * 60 + 30
  {
    Round(TotalSeconds(ps) as real / 60.0) + SetupMinutes
  }

  /** What the schema's minimum on target sets and rest time promises. */
  predicate Sensible(ps: seq<Planned>) {
    forall i :: 0 <= i < |ps| ==> ps[i].targetSets >= 0 && ps[i].restTime.GetOr(0) >= 0
  }

  lemma {:induction false} TotalSecondsNonNegative(ps: seq<Planned>)
    requires Sensible(ps)
    ensures TotalSeconds(ps) >= 0
    decreases |ps|
  {
    if ps != [] {
      var init := ps[..|ps| - 1];
      assert forall i :: 0 <= i < |init| ==> init[i] == ps[i];
      TotalSecondsNonNegative(init);
      var p := ps[|ps| - 1];
      assert RestOf(p) >= 0;
      assert Seconds(p) >= 0 by {
        assert p.targetSets >= 0 && SecondsPerSet + RestOf(p) >= 0;
      }
    }
  }

  /** With non-negative sets and rests the estimate is never below the ten setup minutes, the
      schema's minimum for `duration.estimated`. */
  lemma EstimateAtLeastSetup(ps: seq<Planned>)
    requires Sensible(ps)
    ensures Estimate(ps) >= SetupMinutes
  {
    TotalSecondsNonNegative(ps);
  }

  /** A rest time of zero is costed exactly as an unset one, that is as 90 seconds. */
  lemma ZeroRestCostsDefault(ps: seq<Planned>, i: nat)
    requires i < |ps| && ps[i].restTime == Some(0)
    ensures Estimate(ps[i := ps[i].(restTime := Some(DefaultRest))]) == Estimate(ps)
    ensures Estimate(ps[i := ps[i].(restTime := None)]) == Estimate(ps)
  {
    ReplaceSameSeconds(ps, i, ps[i].(restTime := Some(DefaultRest)));
    ReplaceSameSeconds(ps, i, ps[i].(restTime := None));
  }

  lemma {:induction false} ReplaceSameSeconds(ps: seq<Planned>, i: nat, q: Planned)
    requires i < |ps| && Seconds(q) == Seconds(ps[i])
    ensures TotalSeconds(ps[i := q]) == TotalSeconds(ps)
    decreases |ps|
  {
    var qs := ps[i := q];
    if i < |ps| - 1 {
      assert qs[..|qs| - 1] == ps[..|ps| - 1][i := q];
      ReplaceSameSeconds(ps[..|ps| - 1], i, q);
    } else {
      assert qs[..|qs| - 1] == ps[..|ps| - 1];
    }
  }

  /** Planning one more exercise with non-negative sets and rest never shortens the estimate. */
  lemma EstimateGrows(ps: seq<Planned>, p: Planned)
    requires p.targetSets >= 0 && p.restTime.GetOr(0) >= 0
    ensures Estimate(ps) <= Estimate(ps + [p])
  {
    var all := ps + [p];
    assert all[..|all| - 1] == ps;
    assert Seconds(p) >= 0 by {
      assert p.targetSets >= 0 && SecondsPerSet + RestOf(p) >= 0;
    }
  }

  // ---------------------------------------------------------------------------
  // Muscle groups
  // ---------------------------------------------------------------------------

  datatype Priority = Primary | Secondary

  /** One entry of the hook's `Map`, which keeps its keys in insertion order. */
  datatype Tagged = Tagged(muscle: string, priority: Priority)

  predicate Unique(m: seq<Tagged>) {
    forall i, j :: 0 <= i < j < |m| ==> m[i].muscle != m[j].muscle
  }

  /** `muscleGroups.get(k)`. */
  function Lookup(m: seq<Tagged>, k: string): (r: Option<Priority>)
    ensures r.None? <==> forall i :: 0 <= i < |m| ==> m[i].muscle != k
    ensures r.Some? ==> exists i :: 0 <= i < |m| && m[i] == Tagged(k, r.value)
    decreases |m|
  {
    if m == [] then None
    else if m[0].muscle == k then Some(m[0].priority)
    else
      var r := Lookup(m[1..], k);
      assert forall i :: 1 <= i < |m| ==> m[i] == m[1..][i - 1];
      r
  }

  /** With no muscle listed twice, the entry at any index is the one `Lookup` finds. */
  lemma LookupAt(m: seq<Tagged>, i: nat)
    requires Unique(m) && i < |m|
    ensures Lookup(m, m[i].muscle) == Some(m[i].priority)
  {
    var r := Lookup(m, m[i].muscle);
    var j :| 0 <= j < |m| && m[j] == Tagged(m[i].muscle, r.value);
    assert j == i;
  }

  /** The index of the entry for `k`, if any. */
  function Find(m: seq<Tagged>, k: string): (r: Option<nat>)
    ensures r.Some? ==> r.value < |m| && m[r.value].muscle == k
    ensures r.None? ==> forall i :: 0 <= i < |m| ==> m[i].muscle != k
    decreases |m|
  {
    if m == [] then None
    else if m[0].muscle == k then Some(0)
    else match Find(m[1..], k)
      case None => None
      case Some(i) => Some(i + 1)
  }

  /** `muscleGroups.set(k, p)`: a present key keeps its place and takes the new value; a new key
      goes last. */
  function Put(m: seq<Tagged>, k: string, p: Priority): (r: seq<Tagged>)
    requires Unique(m)
    ensures Unique(r)
    ensures Lookup(r, k) == Some(p)
    ensures forall j :: j != k ==> Lookup(r, j) == Lookup(m, j)
  {
    var r := match Find(m, k)
      case Some(i) => m[i := Tagged(k, p)]
      case None => m + [Tagged(k, p)];
    PutLookup(m, k, p, r);
    r
  }

  lemma PutLookup(m: seq<Tagged>, k: string, p: Priority, r: seq<Tagged>)
    requires Unique(m)
    requires r == match Find(m, k)
      case Some(i) => m[i := Tagged(k, p)]
      case None => m + [Tagged(k, p)]
    ensures Unique(r)
    ensures Lookup(r, k) == Some(p)
    ensures forall j :: j != k ==> Lookup(r, j) == Lookup(m, j)
  {
    match Find(m, k)
    case Some(i) => PutAt(m, k, p, i);
    case None => PutLast(m, k, p);
  }

  /** Overwriting the entry of a present key. */
  lemma PutAt(m: seq<Tagged>, k: string, p: Priority, at: nat)
    requires Unique(m) && at < |m| && m[at].muscle == k
    ensures var r := m[at := Tagged(k, p)];
      Unique(r) && Lookup(r, k) == Some(p) && forall j :: j != k ==> Lookup(r, j) == Lookup(m, j)
  {
    var r := m[at := Tagged(k, p)];
    assert forall t :: 0 <= t < |r| ==> r[t].muscle == m[t].muscle;
    assert Unique(r);
    LookupAt(r, at);
    forall j | j != k
      ensures Lookup(r, j) == Lookup(m, j)
    {
      if Lookup(m, j).Some? {
        var t :| 0 <= t < |m| && m[t] == Tagged(j, Lookup(m, j).value);
        assert r[t] == m[t];
        LookupAt(m, t);
        LookupAt(r, t);
      } else {
        assert forall t :: 0 <= t < |r| ==> r[t].muscle != j;
      }
    }
  }

  /** Appending the entry of a new key. */
  lemma PutLast(m: seq<Tagged>, k: string, p: Priority)
    requires Unique(m) && forall t :: 0 <= t < |m| ==> m[t].muscle != k
    ensures var r := m + [Tagged(k, p)];
      Unique(r) && Lookup(r, k) == Some(p) && forall j :: j != k ==> Lookup(r, j) == Lookup(m, j)
  {
    var r := m + [Tagged(k, p)];
    assert forall t :: 0 <= t < |m| ==> r[t] == m[t];
    assert Unique(r);
    LookupAt(r, |m|);
    forall j | j != k
      ensures Lookup(r, j) == Lookup(m, j)
    {
      if Lookup(m, j).Some? {
        var t :| 0 <= t < |m| && m[t] == Tagged(j, Lookup(m, j).value);
        LookupAt(m, t);
        LookupAt(r, t);
      } else {
        assert forall t :: 0 <= t < |r| ==> r[t].muscle != j;
      }
    }
  }

  /** The primary loop of the hook: every listed muscle set to primary. */
  function MarkPrimary(m: seq<Tagged>, ks: seq<string>): (r: seq<Tagged>)
    requires Unique(m)
    ensures Unique(r)
    ensures forall j :: Lookup(r, j) == if j in ks then Some(Primary) else Lookup(m, j)
    decreases |ks|
  {
    if ks == [] then m
    else
      var r := MarkPrimary(Put(m, ks[0], Primary), ks[1..]);
      assert forall j :: j in ks <==> j == ks[0] || j in ks[1..];
      r
  }

  /** The secondary loop of the hook: every listed muscle not yet present added as secondary. */
  function MarkSecondary(m: seq<Tagged>, ks: seq<string>): (r: seq<Tagged>)
    requires Unique(m)
    ensures Unique(r)
    ensures forall j :: Lookup(r, j) == if Lookup(m, j).None? && j in ks then Some(Secondary) else Lookup(m, j)
    decreases |ks|
  {
    if ks == [] then m
    else
      var next := if Lookup(m, ks[0]).None? then Put(m, ks[0], Secondary) else m;
      var r := MarkSecondary(next, ks[1..]);
      assert forall j :: j in ks <==> j == ks[0] || j in ks[1..];
      r
  }

  /** Whether some exercise of `ps` lists `k` as a primary muscle. */
  predicate ListsPrimary(ps: seq<Planned>, k: string) {
    exists i :: 0 <= i < |ps| && k in PrimaryOf(ps[i].exercise)
  }

  /** Whether some exercise of `ps` lists `k` as a secondary muscle. */
  predicate ListsSecondary(ps: seq<Planned>, k: string) {
    exists i :: 0 <= i < |ps| && k in SecondaryOf(ps[i].exercise)
  }

  /** A muscle is listed by a non-empty run of exercises exactly when the first lists it or the
      rest do. */
  lemma ListsFirst(ps: seq<Planned>)
    requires ps != []
    ensures forall k :: ListsPrimary(ps, k) <==> k in PrimaryOf(ps[0].exercise) || ListsPrimary(ps[1..], k)
    ensures forall k :: ListsSecondary(ps, k) <==> k in SecondaryOf(ps[0].exercise) || ListsSecondary(ps[1..], k)
  {
    assert forall i :: 1 <= i < |ps| ==> ps[1..][i - 1] == ps[i];
    forall k | ListsPrimary(ps[1..], k)
      ensures ListsPrimary(ps, k)
    {
      var i :| 0 <= i < |ps[1..]| && k in PrimaryOf(ps[1..][i].exercise);
      assert ps[i + 1] == ps[1..][i];
    }
    forall k | ListsSecondary(ps[1..], k)
      ensures ListsSecondary(ps, k)
    {
      var i :| 0 <= i < |ps[1..]| && k in SecondaryOf(ps[1..][i].exercise);
      assert ps[i + 1] == ps[1..][i];
    }
  }

  /** The hook's merge over the exercises in order, from the map built so far. Whatever the
      order, a muscle any later exercise lists as primary ends primary; otherwise it keeps its
      value, or becomes secondary when only listed as secondary. */
  function Merge(m: seq<Tagged>, ps: seq<Planned>): (r: seq<Tagged>)
    requires Unique(m)
    ensures Unique(r)
    ensures forall k :: Lookup(r, k) == (
                if ListsPrimary(ps, k) then Some(Primary)
                else if Lookup(m, k).Some? then Lookup(m, k)
                else if ListsSecondary(ps, k) then Some(Secondary)
                else None)
    decreases |ps|
  {
    if ps == [] then m
    else
      var p := ps[0];
      var next := MarkSecondary(MarkPrimary(m, PrimaryOf(p.exercise)), SecondaryOf(p.exercise));
      var r := Merge(next, ps[1..]);
      ListsFirst(ps);
      r
  }

  /** `muscleGroups` after the hook: every muscle of the exercises once, primary exactly when some
      exercise lists it as primary, whichever order the exercises come in. */
  function MuscleGroups(ps: seq<Planned>): (r: seq<Tagged>)
    ensures Unique(r)
    ensures forall k :: Lookup(r, k) == Some(Primary) <==> ListsPrimary(ps, k)
    ensures forall k :: Lookup(r, k) == Some(Secondary) <==> !ListsPrimary(ps, k) && ListsSecondary(ps, k)
    ensures forall k :: Lookup(r, k).None? <==> !ListsPrimary(ps, k) && !ListsSecondary(ps, k)
  {
    Merge([], ps)
  }

  // ---------------------------------------------------------------------------
  // The save hook
  // ---------------------------------------------------------------------------

  /** The fields of a routine document the hook reads or writes. */
  datatype Routine = Routine(exercises: seq<Planned>, estimated: Option<int>, muscleGroups: seq<Tagged>)

  /** The `pre('save')` hook: nothing happens unless the exercises were modified; then the
      estimate is recomputed, and the muscle groups too when the exercise references are
      populated. */
  function PreSave(r: Routine, exercisesModified: bool, populated: bool): (s: Routine)
    ensures s.exercises == r.exercises
    ensures !exercisesModified ==> s == r
    ensures exercisesModified ==> s.estimated == Some(Estimate(r.exercises))
    ensures exercisesModified && populated ==>
      && Unique(s.muscleGroups)
      && forall k :: Lookup(s.muscleGroups, k) == Some(Primary) <==> ListsPrimary(r.exercises, k)
    ensures !(exercisesModified && populated) ==> s.muscleGroups == r.muscleGroups
  {
    if !exercisesModified then r
    else
      r.(estimated := Some(Estimate(r.exercises)),
         muscleGroups := if populated then MuscleGroups(r.exercises) else r.muscleGroups)
  }
}

=== FILE: scoring.dfy ===
/** What the four analyzers of ExerciseAnalyzer share: the result record, the catalogue of form
    mistakes with their point deductions, the status bands, the pose-quality gate
    (`validatePoseQuality`) and the landmarks of PoseNet's 17-point skeleton. */
module Scoring {
  import opened Wrappers
  import opened Geometry

  // ---------------------------------------------------------------------------
  // Results
  // ---------------------------------------------------------------------------

  /** `status` of a result; `Info` is only used for exercises no analyzer handles. */
  datatype Status = Perfect | Excellent | Good | Warning | Error | Info

  /** Movement phases of all exercises, plus the coach's initial `'unknown'`. */
  datatype Phase =
    | Unknown
    | Up | Down | Transition          // push-up, and the press's in-between phase
    | Standing | Squatting            // squat
    | Extended | Lowered              // press
    | Lifting                         // deadlift
    | Active                          // exercises without an analyzer

  /** Every entry an analyzer can push onto `mistakes`. */
  datatype Mistake =
    | PoorPoseDetection
      // push-up
    | BodyNotStraight | HipsSag | HipsPiked | HandsTooClose | HandsTooWide
    | NotLowEnough | ElbowsFlared | HeadNotNeutral | Swaying
      // squat
    | SlightlyShallow | TooShallow | KneesOffToes | KneesCaveIn | LeaningForward
    | SpineNotNeutral | StanceTooNarrow | StanceTooWide
      // dumbbell press
    | ArmsAsymmetric | ShouldersUneven | ElbowsNotUnderWrists | ElbowsTooWide | PressLean
      // deadlift
    | BackRounded | BackSlightlyRounded | ShallowHinge | HipsStraightDown | KneesForward
    | WeightAway

  /** The text the source pushes for each mistake. */
  function Describe(m: Mistake): string {
    match m
    case PoorPoseDetection => "Poor pose detection"
    case BodyNotStraight => "Keep your body in a straight line"
    case HipsSag => "Don't let your hips sag down"
    case HipsPiked => "Lower your hips - don't pike up"
    case HandsTooClose => "Hands too close - widen your grip"
    case HandsTooWide => "Hands too wide - bring them closer"
    case NotLowEnough => "Go lower - chest should nearly touch the ground"
    case ElbowsFlared => "Keep elbows closer to your body"
    case HeadNotNeutral => "Keep your head in neutral position"
    case Swaying => "Maintain stability - reduce swaying"
    case SlightlyShallow => "Go slightly deeper for full range"
    case TooShallow => "Go deeper - hips should go below knees"
    case KneesOffToes => "Keep knees aligned over your toes"
    case KneesCaveIn => "Don't let your knees cave inward"
    case LeaningForward => "Keep your chest up - don't lean forward too much"
    case SpineNotNeutral => "Maintain neutral spine position"
    case StanceTooNarrow => "Widen your stance to shoulder-width"
    case StanceTooWide => "Narrow your stance slightly"
    case ArmsAsymmetric => "Keep both arms moving symmetrically"
    case ShouldersUneven => "Keep shoulders level and stable"
    case ElbowsNotUnderWrists => "Keep elbows directly under wrists"
    case ElbowsTooWide => "Don't flare elbows too wide"
    case PressLean => "Maintain neutral spine - avoid excessive lean"
    case BackRounded => "CRITICAL: Keep your back straight - avoid rounding"
    case BackSlightlyRounded => "Maintain neutral spine - slight rounding detected"
    case ShallowHinge => "Push your hips back more - emphasize hip hinge"
    case HipsStraightDown => "Hips should move back, not straight down"
    case KneesForward => "Don't let knees drift forward - sit back more"
    case WeightAway => "Keep the weight close to your body"
  }

  /** The points the source subtracts from 100 together with pushing `m`. The quality gate's
      entry carries the whole 100: a gated result scores 0. */
  function Weight(m: Mistake): (w: nat)
    ensures 8 <= w <= 100
  {
    match m
    case PoorPoseDetection => 100
    case BodyNotStraight => 25
    case HipsSag => 20
    case HipsPiked => 20
    case HandsTooClose => 15
    case HandsTooWide => 15
    case NotLowEnough => 20
    case ElbowsFlared => 15
    case HeadNotNeutral => 10
    case Swaying => 10
    case SlightlyShallow => 10
    case TooShallow => 25
    case KneesOffToes => 20
    case KneesCaveIn => 15
    case LeaningForward => 20
    case SpineNotNeutral => 15
    case StanceTooNarrow => 12
    case StanceTooWide => 8
    case ArmsAsymmetric => 15
    case ShouldersUneven => 20
    case ElbowsNotUnderWrists => 20
    case ElbowsTooWide => 15
    case PressLean => 15
    case BackRounded => 35
    case BackSlightlyRounded => 20
    case ShallowHinge => 25
    case HipsStraightDown => 20
    case KneesForward => 15
    case WeightAway => 10
  }

  /** Total points subtracted for a list of mistakes. */
  function Deducted(ms: seq<Mistake>): (d: int)
    ensures 8 * |ms| <= d <= 100 * |ms|
    ensures d == 0 <==> ms == []
  {
    if ms == [] then 0 else Weight(ms[0]) + Deducted(ms[1..])
  }

  lemma {:induction false} DeductedAppend(a: seq<Mistake>, b: seq<Mistake>)
    ensures Deducted(a + b) == Deducted(a) + Deducted(b)
    decreases |a|
  {
    if a == [] {
      assert a + b == b;
    } else {
      assert (a + b)[1..] == a[1..] + b;
      DeductedAppend(a[1..], b);
    }
  }

  /** The state an analyzer hands back so that the next frame can compare against it. */
  datatype AnalyzerState =
    | PushUpState(shoulderMid: Point, hipMid: Point, ankleMid: Point)
    | SquatState(hipMid: Point, kneeMid: Point, shoulderMid: Point)
    | PressState(shoulderMid: Point, hipMid: Point, avgElbowAngle: real)
    | DeadliftState(shoulderMid: Point, hipMid: Point, ankleMid: Point)

  /** One analysis result; `phase` and `state` are absent on gated and generic results. The
      `message`, `details` and `metrics` fields are display text and are not modelled. */
  datatype Analysis = Analysis(
    status: Status,
    score: int,
    mistakes: seq<Mistake>,
    phase: Option<Phase>,
    confidence: real,
    state: Option<AnalyzerState>)

  // ---------------------------------------------------------------------------
  // Status bands
  // ---------------------------------------------------------------------------

  /** The status each analyzer derives from its (pre-clamp) score. */
  function StatusFor(score: int): (s: Status)
    ensures s != Info
    ensures s == Perfect <==> score >= 95
    ensures s == Error <==> score < 60
  {
    if score >= 95 then Perfect
    else if score >= 85 then Excellent
    else if score >= 75 then Good
    else if score >= 60 then Warning
    else Error
  }

  /** Position of a status in the order error < warning < good < excellent < perfect. */
  function Rank(s: Status): nat {
    match s
    case Error => 0
    case Info => 0
    case Warning => 1
    case Good => 2
    case Excellent => 3
    case Perfect => 4
  }

  /** A higher score never earns a worse status, and each band starts exactly at 95, 85, 75
      and 60. */
  lemma StatusBands(a: int, b: int)
    requires a <= b
    ensures Rank(StatusFor(a)) <= Rank(StatusFor(b))
    ensures Rank(StatusFor(a)) == (if a >= 95 then 4 else if a >= 85 then 3 else if a >= 75 then 2
                                   else if a >= 60 then 1 else 0)
  {
  }

  // ---------------------------------------------------------------------------
  // Skeleton
  // ---------------------------------------------------------------------------

  const KeypointCount: nat := 17

  const Nose: nat := 0
  const LeftShoulder: nat := 5
  const RightShoulder: nat := 6
  const LeftElbow: nat := 7
  const RightElbow: nat := 8
  const LeftWrist: nat := 9
  const RightWrist: nat := 10
  const LeftHip: nat := 11
  const RightHip: nat := 12
  const LeftKnee: nat := 13
  const RightKnee: nat := 14
  const LeftAnkle: nat := 15
  const RightAnkle: nat := 16

  /** A frame as PoseNet delivers it: all 17 keypoints, in index order. */
  predicate IsFrame(kps: seq<Keypoint>) {
    |kps| == KeypointCount
  }

  function P(kps: seq<Keypoint>, i: nat): Point
    requires IsFrame(kps) && i < KeypointCount
  {
    At(kps[i])
  }

  function ShoulderMid(kps: seq<Keypoint>): Point
    requires IsFrame(kps)
  {
    Midpoint(P(kps, LeftShoulder), P(kps, RightShoulder))
  }

  function HipMid(kps: seq<Keypoint>): Point
    requires IsFrame(kps)
  {
    Midpoint(P(kps, LeftHip), P(kps, RightHip))
  }

  function KneeMid(kps: seq<Keypoint>): Point
    requires IsFrame(kps)
  {
    Midpoint(P(kps, LeftKnee), P(kps, RightKnee))
  }

  function AnkleMid(kps: seq<Keypoint>): Point
    requires IsFrame(kps)
  {
    Midpoint(P(kps, LeftAnkle), P(kps, RightAnkle))
  }

  function LeftElbowAngle(o: Oracle, kps: seq<Keypoint>): real
    requires Sound(o) && IsFrame(kps)
  {
    Angle(o, P(kps, LeftShoulder), P(kps, LeftElbow), P(kps, LeftWrist))
  }

  function RightElbowAngle(o: Oracle, kps: seq<Keypoint>): real
    requires Sound(o) && IsFrame(kps)
  {
    Angle(o, P(kps, RightShoulder), P(kps, RightElbow), P(kps, RightWrist))
  }

  /** The mean elbow angle, which decides the push-up and press phases. */
  function AvgElbowAngle(o: Oracle, kps: seq<Keypoint>): (a: real)
    requires Sound(o) && IsFrame(kps)
    ensures 0.0 <= a <= 180.0
  {
    (LeftElbowAngle(o, kps) + RightElbowAngle(o, kps)) / 2.0
  }

  function ShoulderWidth(o: Oracle, kps: seq<Keypoint>): real
    requires Sound(o) && IsFrame(kps)
  {
    Distance(o, P(kps, LeftShoulder), P(kps, RightShoulder))
  }

  // ---------------------------------------------------------------------------
  // Quality gate
  // ---------------------------------------------------------------------------

  /** The indices `validatePoseQuality` inspects: shoulders, hips, knees and ankles. */
  const CriticalPoints: seq<nat> := [5, 6, 11, 12, 13, 14, 15, 16]
  const ConfidenceThreshold: real := 0.5
  const QualityThreshold: real := 0.7

  /** A keypoint counts when it is present and its score is strictly above 0.5. */
  predicate Reliable(kps: seq<Keypoint>, i: nat) {
    i < |kps| && kps[i].score > ConfidenceThreshold
  }

  function CountReliable(kps: seq<Keypoint>, points: seq<nat>): (n: nat)
    ensures n <= |points|
    ensures n == |points| <==> forall j :: 0 <= j < |points| ==> Reliable(kps, points[j])
  {
    if points == [] then 0
    else (if Reliable(kps, points[0]) then 1 else 0) + CountReliable(kps, points[1..])
  }

  /** The share of critical points that are reliable. */
  function PoseQuality(kps: seq<Keypoint>): (q: real)
    ensures 0.0 <= q <= 1.0
    ensures q == 1.0 <==> forall j :: 0 <= j < |CriticalPoints| ==> Reliable(kps, CriticalPoints[j])
  {
    CountReliable(kps, CriticalPoints) as real / |CriticalPoints| as real
  }

  /** The gate (`quality < 0.7`) rejects a frame exactly when fewer than 6 of the 8 critical
      points are reliable. */
  lemma GateRejectsIffFewerThanSix(kps: seq<Keypoint>)
    ensures PoseQuality(kps) < QualityThreshold <==> CountReliable(kps, CriticalPoints) < 6
  {
  }

  /** The short-circuit result of a gated frame. */
  predicate IsGated(r: Analysis, quality: real) {
    && r.status == Error
    && r.score == 0
    && r.mistakes == [PoorPoseDetection]
    && r.phase == None
    && r.state == None
    && r.confidence == quality
  }

  function Gated(quality: real): (r: Analysis)
    ensures IsGated(r, quality)
  {
    Analysis(Error, 0, [PoorPoseDetection], None, quality, None)
  }

  // ---------------------------------------------------------------------------
  // Scoring discipline
  // ---------------------------------------------------------------------------

  /** The invariant every analyzer result keeps: the score is 100 minus the deductions of the
      listed mistakes, clamped at 0; the status is the band of that score; a result lists no
      mistake exactly when it scores 100, which is also exactly when it is `perfect`. */
  predicate Consistent(r: Analysis) {
    && 0 <= r.score <= 100
    && r.score == Max(0, 100 - Deducted(r.mistakes))
    && r.status == StatusFor(r.score)
    && (r.mistakes == [] <==> r.score == 100)
    && (r.status == Perfect <==> r.mistakes == [])
  }

  lemma GatedConsistent(quality: real)
    ensures Consistent(Gated(quality))
  {
    assert Deducted([PoorPoseDetection]) == 100 + Deducted([]);
  }

  /** The mistakes of one rule and the rules after it: `m` comes first when its check fired. */
  function Push(fired: bool, m: Mistake, later: seq<Mistake>): (r: seq<Mistake>)
    ensures forall x :: x in r <==> (fired && x == m) || x in later
  {
    if fired then [m] + later else later
  }

  /** Pushing a mistake adds its weight to the deduction. */
  lemma DeductedPush(fired: bool, m: Mistake, later: seq<Mistake>)
    ensures Deducted(Push(fired, m, later)) == (if fired then Weight(m) else 0) + Deducted(later)
  {
    if fired {
      assert ([m] + later)[1..] == later;
    }
  }

  /** Pushing a mistake adds at most its weight to the deduction. */
  lemma DeductedPushAtMost(fired: bool, m: Mistake, later: seq<Mistake>, bound: int)
    requires Deducted(later) <= bound
    ensures Deducted(Push(fired, m, later)) <= Weight(m) + bound
  {
    DeductedPush(fired, m, later);
  }

  /** The result of a frame that passed the gate: start at 100, subtract every listed mistake's
      weight, derive the status from that score, and report `max(0, score)`. */
  function Graded(ms: seq<Mistake>, phase: Phase, quality: real, state: AnalyzerState): (r: Analysis)
    ensures Consistent(r)
    ensures r.mistakes == ms && r.phase == Some(phase)
    ensures r.confidence == quality && r.state == Some(state)
  {
    var score := 100 - Deducted(ms);
    Analysis(StatusFor(score), Max(0, score), ms, Some(phase), quality, Some(state))
  }
}

=== FILE: session.dfy ===
/** The live workout session of frontend/src/context/WorkoutContext.js: `workoutReducer` over
    every action it handles, and the completed-set summary `endWorkout` sends to the server.
    Fresh ids (`uuidv4()`) and the current time (`new Date()`) are passed in with the action. */
module Session {
  import opened Wrappers
  import Workouts

  type Id = string
  type Time = int

  datatype Weight = Weight(value: real, unit: string)

  /** The weight of a set nobody has filled in yet. */
  const NoWeight := Weight(0.0, "lbs")

  /** A set as the session keeps it; `restTime` and `notes` are only ever present when an update
      has put them there. */
  datatype WorkSet = WorkSet(
    id: Id, reps: int, weight: Weight, setType: string, isCompleted: bool,
    completedAt: Option<Time>, restTime: Option<int>, notes: Option<string>)

  /** One exercise of the session: the catalogue exercise's id, its sets and notes. */
  datatype Entry = Entry(id: Id, exercise: Id, sets: seq<WorkSet>, notes: string)

  datatype Current = Current(id: Id, name: string, startTime: Time, exercises: seq<Entry>)

  datatype RestTimer = RestTimer(isActive: bool, timeLeft: int, duration: int)

  datatype SessionTimer = SessionTimer(startTime: Option<Time>, elapsed: int)

  datatype State = State(
    currentWorkout: Option<Current>, isActive: bool, startTime: Option<Time>,
    exercises: seq<Entry>, activeExerciseIndex: Option<int>, activeSetIndex: Option<int>,
    restTimer: RestTimer, sessionTimer: SessionTimer)

  const DefaultRest := 90

  const Initial := State(None, false, None, [], None, None, RestTimer(false, 0, DefaultRest), SessionTimer(None, 0))

  /** The keys an `UPDATE_SET` payload may carry; an absent key leaves the field as it is. */
  datatype Changes = Changes(
    reps: Option<int>, weight: Option<Weight>, setType: Option<string>,
    isCompleted: Option<bool>, restTime: Option<int>, notes: Option<string>)

  const NoChanges := Changes(None, None, None, None, None, None)

  datatype Action =
    | StartWorkout(name: Option<string>, workoutId: Id, now: Time)
    | EndWorkout
    | AddExercise(exercise: Id, entryId: Id, setId: Id)
    | RemoveExercise(exerciseId: Id)
    | AddSet(exerciseId: Id, setId: Id)
    | RemoveSet(exerciseId: Id, setId: Id)
    | UpdateSet(exerciseId: Id, setId: Id, changes: Changes)
    | CompleteSet(exerciseId: Id, setId: Id, now: Time)
    | StartRestTimer(duration: int)
    | TickRestTimer
    | StopRestTimer
    | UpdateSessionTimer(elapsed: int)
    | Other(kind: string)

  /** The actions that read `state.currentWorkout.exercises`, which throws without a workout. */
  predicate EditsExercises(a: Action) {
    a.AddExercise? || a.RemoveExercise? || a.AddSet? || a.RemoveSet? || a.UpdateSet? || a.CompleteSet?
  }

  // ---------------------------------------------------------------------------
  // Sets
  // ---------------------------------------------------------------------------

  /** `{ ...set, ...updates }`. */
  function Apply(s: WorkSet, u: Changes): WorkSet {
    s.(reps := u.reps.GetOr(s.reps), weight := u.weight.GetOr(s.weight),
       setType := u.setType.GetOr(s.setType), isCompleted := u.isCompleted.GetOr(s.isCompleted),
       restTime := if u.restTime.Some? then u.restTime else s.restTime,
       notes := if u.notes.Some? then u.notes else s.notes)
  }

  /** An empty update changes nothing, and applying an update twice is applying it once. */
  lemma ApplyLaws(s: WorkSet, u: Changes)
    ensures Apply(s, NoChanges) == s
    ensures Apply(Apply(s, u), u) == Apply(s, u)
    ensures Apply(s, u).id == s.id && Apply(s, u).completedAt == s.completedAt
  {
  }

  /** The set `ADD_SET` appends: uncompleted and of type `normal`, repeating the reps and weight
      of the exercise's last set, or 0 reps of 0 lbs when it has none. */
  function NextSet(sets: seq<WorkSet>, id: Id): (r: WorkSet)
    ensures r.id == id && !r.isCompleted && r.setType == "normal" && r.completedAt.None?
    ensures sets != [] ==> r.reps == sets[|sets| - 1].reps && r.weight == sets[|sets| - 1].weight
    ensures sets == [] ==> r.reps == 0 && r.weight == NoWeight
  {
    var reps := if |sets| > 0 then sets[|sets| - 1].reps else 0;
    var weight := if |sets| > 0 then sets[|sets| - 1].weight else NoWeight;
    WorkSet(id, reps, weight, "normal", false, None, None, None)
  }

  /** What an action does to each matching set. */
  datatype SetEdit = Change(changes: Changes) | Finish(now: Time)

  function Edit(s: WorkSet, e: SetEdit): WorkSet {
    match e
    case Change(u) => Apply(s, u)
    case Finish(now) => s.(isCompleted := true, completedAt := Some(now))
  }

  /** `sets.map(set => set.id === setId ? edit(set) : set)`. */
  function EditSets(sets: seq<WorkSet>, setId: Id, e: SetEdit): (r: seq<WorkSet>)
    ensures |r| == |sets|
    ensures forall i :: 0 <= i < |sets| && sets[i].id != setId ==> r[i] == sets[i]
    ensures forall i :: 0 <= i < |sets| && sets[i].id == setId ==> r[i] == Edit(sets[i], e)
    decreases |sets|
  {
    if sets == [] then []
    else [if sets[0].id == setId then Edit(sets[0], e) else sets[0]] + EditSets(sets[1..], setId, e)
  }

  /** `sets.filter(set => set.id !== setId)`. */
  function DropSet(sets: seq<WorkSet>, setId: Id): (r: seq<WorkSet>)
    ensures forall s :: s in r <==> s in sets && s.id != setId
    ensures |r| <= |sets|
    decreases |sets|
  {
    if sets == [] then []
    else (if sets[0].id != setId then [sets[0]] else []) + DropSet(sets[1..], setId)
  }

  /** Removing an id nobody carries changes nothing. */
  lemma {:induction false} DropAbsentSet(sets: seq<WorkSet>, setId: Id)
    requires forall i :: 0 <= i < |sets| ==> sets[i].id != setId
    ensures DropSet(sets, setId) == sets
    decreases |sets|
  {
    if sets != [] {
      DropAbsentSet(sets[1..], setId);
    }
  }

  /** With set ids unique, removing the id of the set at `i` takes out exactly that set and keeps
      the others in order. */
  lemma {:induction false} DropUniqueSet(sets: seq<WorkSet>, i: nat)
    requires i < |sets|
    requires forall j :: 0 <= j < |sets| && j != i ==> sets[j].id != sets[i].id
    ensures DropSet(sets, sets[i].id) == sets[..i] + sets[i + 1..]
    decreases i
  {
    var id := sets[i].id;
    var tail := sets[1..];
    assert forall j :: 0 <= j < |tail| ==> tail[j] == sets[j + 1];
    if i == 0 {
      DropAbsentSet(tail, id);
      assert DropSet(sets, id) == DropSet(tail, id);
      assert sets[..0] + sets[1..] == tail;
    } else {
      DropUniqueSet(tail, i - 1);
      assert DropSet(sets, id) == [sets[0]] + DropSet(tail, id);
      ConsSlices(sets, i);
    }
  }

  lemma {:induction false} DropSetAppend(a: seq<WorkSet>, b: seq<WorkSet>, setId: Id)
    ensures DropSet(a + b, setId) == DropSet(a, setId) + DropSet(b, setId)
    decreases |a|
  {
    if a == [] {
      assert a + b == b;
    } else {
      assert (a + b)[0] == a[0];
      assert (a + b)[1..] == a[1..] + b;
      DropSetAppend(a[1..], b, setId);
    }
  }

  // ---------------------------------------------------------------------------
  // Exercises
  // ---------------------------------------------------------------------------

  /** What an action does to each exercise whose id matches. */
  datatype EntryEdit = AppendSet(setId: Id) | RemoveSetFrom(setId: Id) | EditSet(setId: Id, e: SetEdit)

  function Revise(x: Entry, op: EntryEdit): (r: Entry)
    ensures r.id == x.id && r.exercise == x.exercise && r.notes == x.notes
  {
    match op
    case AppendSet(id) => x.(sets := x.sets + [NextSet(x.sets, id)])
    case RemoveSetFrom(id) => x.(sets := DropSet(x.sets, id))
    case EditSet(id, e) => x.(sets := EditSets(x.sets, id, e))
  }

  /** `exercises.map(ex => ex.id === exerciseId ? revise(ex) : ex)`. */
  function ReviseAll(es: seq<Entry>, exerciseId: Id, op: EntryEdit): (r: seq<Entry>)
    ensures |r| == |es|
    ensures forall i :: 0 <= i < |es| && es[i].id != exerciseId ==> r[i] == es[i]
    ensures forall i :: 0 <= i < |es| && es[i].id == exerciseId ==> r[i] == Revise(es[i], op)
    decreases |es|
  {
    if es == [] then []
    else [if es[0].id == exerciseId then Revise(es[0], op) else es[0]] + ReviseAll(es[1..], exerciseId, op)
  }

  /** `exercises.filter(ex => ex.id !== exerciseId)`. */
  function DropEntry(es: seq<Entry>, exerciseId: Id): (r: seq<Entry>)
    ensures forall x :: x in r <==> x in es && x.id != exerciseId
    ensures |r| <= |es|
    decreases |es|
  {
    if es == [] then []
    else (if es[0].id != exerciseId then [es[0]] else []) + DropEntry(es[1..], exerciseId)
  }

  lemma {:induction false} DropEntryAppend(a: seq<Entry>, b: seq<Entry>, exerciseId: Id)
    ensures DropEntry(a + b, exerciseId) == DropEntry(a, exerciseId) + DropEntry(b, exerciseId)
    decreases |a|
  {
    if a == [] {
      assert a + b == b;
    } else {
      assert (a + b)[0] == a[0];
      assert (a + b)[1..] == a[1..] + b;
      DropEntryAppend(a[1..], b, exerciseId);
    }
  }

  lemma {:induction false} DropAbsentEntry(es: seq<Entry>, exerciseId: Id)
    requires forall i :: 0 <= i < |es| ==> es[i].id != exerciseId
    ensures DropEntry(es, exerciseId) == es
    decreases |es|
  {
    if es != [] {
      DropAbsentEntry(es[1..], exerciseId);
    }
  }

  /** With ids unique, removing the id of the entry at `i` takes out exactly that entry and keeps
      the others in order. */
  lemma {:induction false} DropUniqueEntry(es: seq<Entry>, i: nat)
    requires i < |es|
    requires forall j :: 0 <= j < |es| && j != i ==> es[j].id != es[i].id
    ensures DropEntry(es, es[i].id) == es[..i] + es[i + 1..]
    decreases i
  {
    var id := es[i].id;
    var tail := es[1..];
    assert forall j :: 0 <= j < |tail| ==> tail[j] == es[j + 1];
    if i == 0 {
      DropAbsentEntry(tail, id);
      assert DropEntry(es, id) == DropEntry(tail, id);
      assert es[..0] + es[1..] == tail;
    } else {
      DropUniqueEntry(tail, i - 1);
      assert DropEntry(es, id) == [es[0]] + DropEntry(tail, id);
      ConsSlices(es, i);
    }
  }

  /** Putting the head back in front of a tail with one element cut out. */
  lemma ConsSlices<T>(s: seq<T>, i: nat)
    requires 0 < i < |s|
    ensures [s[0]] + (s[1..][..i - 1] + s[1..][i..]) == s[..i] + s[i + 1..]
  {
    assert s[1..][..i - 1] == s[1..i];
    assert s[1..][i..] == s[i + 1..];
    assert [s[0]] + s[1..i] == s[..i];
  }

  /** The single-set entry `ADD_EXERCISE` appends. */
  function NewEntry(exercise: Id, entryId: Id, setId: Id): (x: Entry)
    ensures x.id == entryId && x.exercise == exercise && x.notes == ""
    ensures |x.sets| == 1 && x.sets[0] == NextSet([], setId)
  {
    Entry(entryId, exercise, [WorkSet(setId, 0, NoWeight, "normal", false, None, None, None)], "")
  }

  // ---------------------------------------------------------------------------
  // The reducer
  // ---------------------------------------------------------------------------

  /** `action.payload.name || 'New Workout'`: an absent or empty name is replaced. */
  function NameOr(name: Option<string>): (r: string)
    ensures name.Some? && name.value != "" ==> r == name.value
    ensures name.None? || name == Some("") ==> r == "New Workout"
  {
    match name
    case Some(n) => if n != "" then n else "New Workout"
    case None => "New Workout"
  }

  /** The session with its workout's exercises replaced. */
  function WithExercises(s: State, es: seq<Entry>): State
    requires s.currentWorkout.Some?
  {
    s.(currentWorkout := Some(s.currentWorkout.value.(exercises := es)))
  }

  /** The exercise list an exercise action leaves behind. */
  function EditedExercises(es: seq<Entry>, a: Action): seq<Entry>
    requires EditsExercises(a)
  {
    match a
    case AddExercise(exercise, entryId, setId) => es + [NewEntry(exercise, entryId, setId)]
    case RemoveExercise(id) => DropEntry(es, id)
    case AddSet(id, setId) => ReviseAll(es, id, AppendSet(setId))
    case RemoveSet(id, setId) => ReviseAll(es, id, RemoveSetFrom(setId))
    case UpdateSet(id, setId, u) => ReviseAll(es, id, EditSet(setId, Change(u)))
    case CompleteSet(id, setId, now) => ReviseAll(es, id, EditSet(setId, Finish(now)))
  }

  /** An exercise action: a `TypeError` without a workout, otherwise only the workout's exercise
      list changes. */
  function EditExercises(s: State, a: Action): (r: Result<State>)
    requires EditsExercises(a)
    ensures r.Err? <==> s.currentWorkout.None?
    ensures r.Ok? ==> r.value == WithExercises(s, EditedExercises(s.currentWorkout.value.exercises, a))
  {
    if s.currentWorkout.None? then Err("Cannot read properties of null (reading 'exercises')")
    else Ok(WithExercises(s, EditedExercises(s.currentWorkout.value.exercises, a)))
  }

  /** One second off the rest timer, stopping at zero; whether it runs is not touched. */
  function Tick(t: RestTimer): (r: RestTimer)
    ensures r.isActive == t.isActive && r.duration == t.duration
    ensures r.timeLeft >= 0
    ensures t.timeLeft > 0 ==> r.timeLeft == t.timeLeft - 1
    ensures t.timeLeft <= 0 ==> r.timeLeft == 0
  {
    t.(timeLeft := Max(0, t.timeLeft - 1))
  }

  /** `workoutReducer(state, action)`; the exercise actions throw (`Err`) without a workout. */
  function Reduce(s: State, a: Action): (r: Result<State>)
    ensures r.Err? <==> EditsExercises(a) && s.currentWorkout.None?
    ensures a.StartWorkout? ==> r == Ok(s.(
      isActive := true, startTime := Some(a.now),
      currentWorkout := Some(Current(a.workoutId, NameOr(a.name), a.now, [])),
      sessionTimer := SessionTimer(Some(a.now), 0)))
    ensures a.EndWorkout? ==> r == Ok(Initial)
    // exercise actions touch nothing but the workout's exercise list
    ensures EditsExercises(a) && r.Ok? ==>
      r.value == WithExercises(s, EditedExercises(s.currentWorkout.value.exercises, a))
    // timer actions touch nothing but their timer
    ensures a.StartRestTimer? ==> r == Ok(s.(restTimer := RestTimer(true, a.duration, a.duration)))
    ensures a.TickRestTimer? ==> r == Ok(s.(restTimer := Tick(s.restTimer)))
    ensures a.StopRestTimer? ==>
      r == Ok(s.(restTimer := s.restTimer.(isActive := false, timeLeft := 0)))
    ensures a.UpdateSessionTimer? ==> r == Ok(s.(sessionTimer := s.sessionTimer.(elapsed := a.elapsed)))
    ensures a.Other? ==> r == Ok(s)
  {
    match a
    case StartWorkout(name, id, now) =>
      Ok(s.(isActive := true, startTime := Some(now),
            currentWorkout := Some(Current(id, NameOr(name), now, [])),
            sessionTimer := SessionTimer(Some(now), 0)))
    case EndWorkout => Ok(Initial)
    case StartRestTimer(d) => Ok(s.(restTimer := RestTimer(true, d, d)))
    case TickRestTimer => Ok(s.(restTimer := Tick(s.restTimer)))
    case StopRestTimer => Ok(s.(restTimer := s.restTimer.(isActive := false, timeLeft := 0)))
    case UpdateSessionTimer(e) => Ok(s.(sessionTimer := s.sessionTimer.(elapsed := e)))
    case Other(_) => Ok(s)
    case AddExercise(_, _, _) => EditExercises(s, a)
    case RemoveExercise(_) => EditExercises(s, a)
    case AddSet(_, _) => EditExercises(s, a)
    case RemoveSet(_, _) => EditExercises(s, a)
    case UpdateSet(_, _, _) => EditExercises(s, a)
    case CompleteSet(_, _, _) => EditExercises(s, a)
  }

  // ---------------------------------------------------------------------------
  // Properties of the reducer
  // ---------------------------------------------------------------------------

  /** Whether an entry of `es` carries the id `id`. */
  predicate HasEntry(es: seq<Entry>, id: Id) {
    exists i :: 0 <= i < |es| && es[i].id == id
  }

  /** `ADD_EXERCISE` appends exactly one exercise, with one fresh set, and leaves the existing
      exercises as they were. */
  lemma AddExerciseAppends(s: State, exercise: Id, entryId: Id, setId: Id)
    requires s.currentWorkout.Some?
    ensures var r := Reduce(s, AddExercise(exercise, entryId, setId));
      var before := s.currentWorkout.value.exercises;
      var after := r.value.currentWorkout.value.exercises;
      && r.Ok? && |after| == |before| + 1 && after[..|before|] == before
      && after[|before|].id == entryId && after[|before|].exercise == exercise
      && after[|before|].sets == [NextSet([], setId)]
  {
    var before := s.currentWorkout.value.exercises;
    assert (before + [NewEntry(exercise, entryId, setId)])[..|before|] == before;
  }

  /** Removing an exercise just added, under an id no other exercise has, restores the session. */
  lemma AddThenRemoveExercise(s: State, exercise: Id, entryId: Id, setId: Id)
    requires s.currentWorkout.Some? && !HasEntry(s.currentWorkout.value.exercises, entryId)
    ensures var added := Reduce(s, AddExercise(exercise, entryId, setId));
      added.Ok? && Reduce(added.value, RemoveExercise(entryId)) == Ok(s)
  {
    var es := s.currentWorkout.value.exercises;
    var x := NewEntry(exercise, entryId, setId);
    DropEntryAppend(es, [x], entryId);
    DropAbsentEntry(es, entryId);
    assert DropEntry([x], entryId) == [] by {
      assert [x][1..] == [];
    }
    assert es + [] == es;
  }

  /** `REMOVE_EXERCISE` removes exactly the exercise with that id when ids are unique, keeping
      the others in their order. */
  lemma RemoveExerciseExactly(s: State, i: nat)
    requires s.currentWorkout.Some? && i < |s.currentWorkout.value.exercises|
    requires var es := s.currentWorkout.value.exercises;
      forall j :: 0 <= j < |es| && j != i ==> es[j].id != es[i].id
    ensures var es := s.currentWorkout.value.exercises;
      var r := Reduce(s, RemoveExercise(es[i].id));
      r.Ok? && r.value.currentWorkout.value.exercises == es[..i] + es[i + 1..]
  {
    DropUniqueEntry(s.currentWorkout.value.exercises, i);
  }

  /** `REMOVE_SET` removes exactly the set with that id from the exercise when set ids are unique
      there, keeping its other sets in order; exercises with another id are untouched. */
  lemma RemoveSetExactly(s: State, k: nat, i: nat)
    requires s.currentWorkout.Some? && k < |s.currentWorkout.value.exercises|
    requires var sets := s.currentWorkout.value.exercises[k].sets;
      i < |sets| && forall j :: 0 <= j < |sets| && j != i ==> sets[j].id != sets[i].id
    ensures var es := s.currentWorkout.value.exercises;
      var sets := es[k].sets;
      var r := Reduce(s, RemoveSet(es[k].id, sets[i].id));
      && r.Ok? && |r.value.currentWorkout.value.exercises| == |es|
      && r.value.currentWorkout.value.exercises[k].sets == sets[..i] + sets[i + 1..]
      && forall j :: 0 <= j < |es| && es[j].id != es[k].id ==> r.value.currentWorkout.value.exercises[j] == es[j]
  {
    DropUniqueSet(s.currentWorkout.value.exercises[k].sets, i);
  }

  /** Whether some entry with id `exerciseId` already holds a set with id `setId`. */
  predicate HasSet(es: seq<Entry>, exerciseId: Id, setId: Id) {
    exists i, j :: 0 <= i < |es| && es[i].id == exerciseId && 0 <= j < |es[i].sets| && es[i].sets[j].id == setId
  }

  /** Removing a set just added, under a set id that exercise did not use, restores the
      session. */
  lemma AddThenRemoveSet(s: State, exerciseId: Id, setId: Id)
    requires s.currentWorkout.Some? && !HasSet(s.currentWorkout.value.exercises, exerciseId, setId)
    ensures var added := Reduce(s, AddSet(exerciseId, setId));
      added.Ok? && Reduce(added.value, RemoveSet(exerciseId, setId)) == Ok(s)
  {
    var es := s.currentWorkout.value.exercises;
    var mid := ReviseAll(es, exerciseId, AppendSet(setId));
    var back := ReviseAll(mid, exerciseId, RemoveSetFrom(setId));
    forall i | 0 <= i < |es|
      ensures back[i] == es[i]
    {
      if es[i].id == exerciseId {
        var sets := es[i].sets;
        var n := NextSet(sets, setId);
        DropSetAppend(sets, [n], setId);
        DropAbsentSet(sets, setId);
        assert DropSet([n], setId) == [] by {
          assert [n][1..] == [];
        }
        assert sets + [] == sets;
      }
    }
    assert back == es;
  }

  lemma FinishTwice(sets: seq<WorkSet>, setId: Id, t1: Time, t2: Time)
    ensures EditSets(EditSets(sets, setId, Finish(t1)), setId, Finish(t2)) == EditSets(sets, setId, Finish(t2))
  {
    var once := EditSets(sets, setId, Finish(t1));
    var twice := EditSets(once, setId, Finish(t2));
    var direct := EditSets(sets, setId, Finish(t2));
    assert forall j :: 0 <= j < |sets| ==> once[j].id == sets[j].id;
    assert forall j :: 0 <= j < |sets| ==> twice[j] == direct[j];
  }

  /** Completing a set again only moves its completion time: two `COMPLETE_SET`s leave the
      session as the second one alone would. */
  lemma CompleteTwice(s: State, exerciseId: Id, setId: Id, t1: Time, t2: Time)
    requires s.currentWorkout.Some?
    ensures var once := Reduce(s, CompleteSet(exerciseId, setId, t1));
      once.Ok? && Reduce(once.value, CompleteSet(exerciseId, setId, t2)) == Reduce(s, CompleteSet(exerciseId, setId, t2))
  {
    var es := s.currentWorkout.value.exercises;
    var a := ReviseAll(es, exerciseId, EditSet(setId, Finish(t1)));
    var b := ReviseAll(a, exerciseId, EditSet(setId, Finish(t2)));
    var c := ReviseAll(es, exerciseId, EditSet(setId, Finish(t2)));
    forall i | 0 <= i < |es|
      ensures b[i] == c[i]
    {
      if es[i].id == exerciseId {
        FinishTwice(es[i].sets, setId, t1, t2);
      }
    }
    assert b == c;
    var once := WithExercises(s, a);
    assert Reduce(s, CompleteSet(exerciseId, setId, t1)) == Ok(once);
    assert Reduce(once, CompleteSet(exerciseId, setId, t2)) == Ok(WithExercises(once, b));
  }

  /** `UPDATE_SET` and `COMPLETE_SET` change only the sets whose exercise id and set id both
      match; every other set of every exercise stays as it was. */
  lemma EditsOnlyTarget(s: State, a: Action)
    requires s.currentWorkout.Some? && (a.UpdateSet? || a.CompleteSet?)
    ensures var before := s.currentWorkout.value.exercises;
      var after := Reduce(s, a).value.currentWorkout.value.exercises;
      && |after| == |before|
      && forall i :: 0 <= i < |before| ==>
           && after[i].id == before[i].id && |after[i].sets| == |before[i].sets|
           && forall j :: 0 <= j < |before[i].sets| ==>
                (before[i].id != a.exerciseId || before[i].sets[j].id != a.setId ==> after[i].sets[j] == before[i].sets[j])
  {
  }

  /** Ticking the rest timer `n` times from the state `s`. */
  function Ticks(s: State, n: nat): (r: State)
    ensures r.restTimer.isActive == s.restTimer.isActive
    decreases n
  {
    if n == 0 then s else Reduce(Ticks(s, n - 1), TickRestTimer).value
  }

  /** The rest timer counts down one second per tick and stops at zero, never going below. */
  lemma {:induction false} TicksRunDown(s: State, n: nat)
    requires n >= 1
    ensures Ticks(s, n).restTimer.timeLeft == Max(0, s.restTimer.timeLeft - n)
    ensures Ticks(s, n).restTimer.timeLeft >= 0
    decreases n
  {
    if n > 1 {
      TicksRunDown(s, n - 1);
    }
  }

  // ---------------------------------------------------------------------------
  // endWorkout
  // ---------------------------------------------------------------------------

  /** A set as `endWorkout` sends it: its reps, weight value and completion. */
  function Logged(x: WorkSet): Workouts.SetLog {
    Workouts.SetLog(x.reps, x.weight.value, x.isCompleted)
  }

  function LoggedSets(sets: seq<WorkSet>): (r: seq<Workouts.SetLog>)
    ensures |r| == |sets|
    ensures forall i :: 0 <= i < |sets| ==> r[i] == Logged(sets[i])
    decreases |sets|
  {
    if sets == [] then [] else LoggedSets(sets[..|sets| - 1]) + [Logged(sets[|sets| - 1])]
  }

  /** Each exercise as the server receives it, all sets still present: the reference the saved
      summary is compared with. */
  function AllLogged(es: seq<Entry>): (r: seq<Workouts.ExerciseLog>)
    ensures |r| == |es|
    decreases |es|
  {
    if es == [] then []
    else AllLogged(es[..|es| - 1]) + [Workouts.ExerciseLog(None, LoggedSets(es[|es| - 1].sets))]
  }

  /** The exercises `endWorkout` sends: each exercise with its completed sets only. */
  function Saved(es: seq<Entry>): (r: seq<Workouts.ExerciseLog>)
    ensures |r| == |es|
    ensures forall i :: 0 <= i < |es| ==> forall x :: x in r[i].sets ==> x.isCompleted
  {
    Workouts.KeepCompleted(AllLogged(es))
  }

  /** The summary `endWorkout` computes before posting: the duration from the session's start
      (a missing start reads as the epoch) and the totals of the completed sets. */
  datatype Summary = Summary(name: string, duration: int, exercises: seq<Workouts.ExerciseLog>, totals: Workouts.Totals)

  /** `endWorkout`: nothing without a workout; otherwise the summary its loops compute. */
  function Summarize(s: State, now: Time): (r: Option<Summary>)
    ensures r.Some? <==> s.currentWorkout.Some?
    ensures r.Some? ==>
      && r.value.name == s.currentWorkout.value.name
      && r.value.duration == Workouts.Minutes(s.startTime.GetOr(0), now)
      && r.value.totals == Workouts.Tally(AllLogged(s.currentWorkout.value.exercises))
      && r.value.totals.sets == |Workouts.CompletedSets(AllLogged(s.currentWorkout.value.exercises))|
  {
    match s.currentWorkout
    case None => None
    case Some(w) =>
      var exercises := Saved(w.exercises);
      Workouts.UnfinishedSetsIgnored(AllLogged(w.exercises));
      Workouts.TallyIsSumOverCompleted(AllLogged(w.exercises));
      Some(Summary(w.name, Workouts.Minutes(s.startTime.GetOr(0), now), exercises, Workouts.Tally(exercises)))
  }

  /** The server agrees with the client: saving the posted workout recomputes exactly the totals
      and the duration `endWorkout` computed. A missing start is read as 0 on both sides; the
      server rejects such a workout before saving (backend/routes/workouts.js:124-126), and the
      reducer never opens a workout without a start, so that case is never saved. */
  lemma ServerAgrees(s: State, now: Time, stale: Workouts.Totals)
    requires s.currentWorkout.Some?
    ensures var sum := Summarize(s, now).value;
      var doc := Workouts.Workout(sum.exercises, s.startTime.GetOr(0), Some(now), None, stale);
      var saved := Workouts.PreSave(doc, true);
      saved.totals == sum.totals && saved.duration == Some(sum.duration)
  {
  }
}

=== FILE: squat.dfy ===
/** ExerciseAnalyzer.analyzeSquat: graded depth, knee tracking, knee valgus, forward lean,
    spine alignment and stance width of a squat. */
module Squat {
  import opened Wrappers
  import opened Geometry
  import opened Scoring

  const SquatKneeAngle: real := 110.0
  const DepthMargin: real := 0.03
  const KneeTrackTolerance: real := 0.08
  const LeanTolerance: real := 0.1

  function AvgKneeAngle(o: Oracle, kps: seq<Keypoint>): (a: real)
    requires Sound(o) && IsFrame(kps)
    ensures 0.0 <= a <= 180.0
  {
    (Angle(o, P(kps, LeftHip), P(kps, LeftKnee), P(kps, LeftAnkle))
     + Angle(o, P(kps, RightHip), P(kps, RightKnee), P(kps, RightAnkle))) / 2.0
  }

  /** `squatting` below 110 degrees of average knee angle, `standing` otherwise. */
  function PhaseOf(avgKneeAngle: real): (p: Phase)
    ensures p == Squatting <==> avgKneeAngle < SquatKneeAngle
    ensures p == Standing <==> avgKneeAngle >= SquatKneeAngle
  {
    if avgKneeAngle < SquatKneeAngle then Squatting else Standing
  }

  /** The angle at the shoulder midpoint between straight up (0.1 above it) and the hips. */
  function SpineAngle(o: Oracle, kps: seq<Keypoint>): (a: real)
    requires Sound(o) && IsFrame(kps)
    ensures 0.0 <= a <= 180.0
  {
    var shoulderMid := ShoulderMid(kps);
    Angle(o, Point(shoulderMid.x, shoulderMid.y - 0.1), shoulderMid, HipMid(kps))
  }

  /** Which squat rules fire on a frame. */
  datatype Checks = Checks(
    slightlyShallow: bool, tooShallow: bool, kneesOffToes: bool, kneesCaveIn: bool,
    leaningForward: bool, spineNotNeutral: bool, stanceTooNarrow: bool, stanceTooWide: bool)

  /** The squat checks, with the thresholds of the source. */
  function Check(o: Oracle, kps: seq<Keypoint>): (c: Checks)
    requires Sound(o) && IsFrame(kps)
    // depth is graded only while squatting: 0, -10 within 0.03 above the knees, -25 beyond
    ensures c.slightlyShallow <==>
      PhaseOf(AvgKneeAngle(o, kps)) == Squatting
      && KneeMid(kps).y < HipMid(kps).y <= KneeMid(kps).y + DepthMargin
    ensures c.tooShallow <==>
      PhaseOf(AvgKneeAngle(o, kps)) == Squatting && HipMid(kps).y > KneeMid(kps).y + DepthMargin
    // the `> 200` half of the spine test can never hold: angles are at most 180
    ensures c.spineNotNeutral <==> SpineAngle(o, kps) < 160.0
    ensures !(c.stanceTooNarrow && c.stanceTooWide)
  {
    var hipMid := HipMid(kps);
    var kneeMid := KneeMid(kps);
    var shoulderMid := ShoulderMid(kps);
    var squatting := PhaseOf(AvgKneeAngle(o, kps)) == Squatting;
    var leftKneeAlignment := AbsReal(P(kps, LeftKnee).x - P(kps, LeftAnkle).x);
    var rightKneeAlignment := AbsReal(P(kps, RightKnee).x - P(kps, RightAnkle).x);
    var kneeWidth := Distance(o, P(kps, LeftKnee), P(kps, RightKnee));
    var ankleWidth := Distance(o, P(kps, LeftAnkle), P(kps, RightAnkle));
    var spineAngle := SpineAngle(o, kps);
    var stanceWidth := ankleWidth;
    var shoulderWidth := ShoulderWidth(o, kps);
    var tooNarrow := stanceWidth < shoulderWidth * 0.8;
    Checks(
      slightlyShallow := squatting && !(hipMid.y <= kneeMid.y) && hipMid.y <= kneeMid.y + DepthMargin,
      tooShallow := squatting && !(hipMid.y <= kneeMid.y) && !(hipMid.y <= kneeMid.y + DepthMargin),
      kneesOffToes := leftKneeAlignment > KneeTrackTolerance || rightKneeAlignment > KneeTrackTolerance,
      kneesCaveIn := kneeWidth < ankleWidth * 0.8,
      leaningForward := AbsReal(shoulderMid.x - hipMid.x) > LeanTolerance,
      spineNotNeutral := spineAngle < 160.0 || spineAngle > 200.0,
      stanceTooNarrow := tooNarrow,
      stanceTooWide := !tooNarrow && stanceWidth > shoulderWidth * 1.8)
  }

  /** The mistakes of the checks that fired, in the order the source checks them. */
  function Listed(c: Checks): seq<Mistake> {
    Push(c.slightlyShallow, SlightlyShallow,
    Push(c.tooShallow, TooShallow,
    Push(c.kneesOffToes, KneesOffToes,
    Push(c.kneesCaveIn, KneesCaveIn,
    Push(c.leaningForward, LeaningForward,
    Push(c.spineNotNeutral, SpineNotNeutral,
    Push(c.stanceTooNarrow, StanceTooNarrow,
    Push(c.stanceTooWide, StanceTooWide, []))))))))
  }

  /** A mistake is reported exactly when its check fires. */
  lemma Reported(c: Checks)
    ensures var ms := Listed(c);
      && (SlightlyShallow in ms <==> c.slightlyShallow) && (TooShallow in ms <==> c.tooShallow)
      && (KneesOffToes in ms <==> c.kneesOffToes) && (KneesCaveIn in ms <==> c.kneesCaveIn)
      && (LeaningForward in ms <==> c.leaningForward) && (SpineNotNeutral in ms <==> c.spineNotNeutral)
      && (StanceTooNarrow in ms <==> c.stanceTooNarrow) && (StanceTooWide in ms <==> c.stanceTooWide)
  {
    ReportedDepth(c);
    ReportedKnees(c);
    ReportedTorso(c);
    ReportedStance(c);
  }

  lemma ReportedDepth(c: Checks)
    ensures (SlightlyShallow in Listed(c) <==> c.slightlyShallow) && (TooShallow in Listed(c) <==> c.tooShallow)
  {
  }

  lemma ReportedKnees(c: Checks)
    ensures (KneesOffToes in Listed(c) <==> c.kneesOffToes) && (KneesCaveIn in Listed(c) <==> c.kneesCaveIn)
  {
  }

  lemma ReportedTorso(c: Checks)
    ensures (LeaningForward in Listed(c) <==> c.leaningForward) && (SpineNotNeutral in Listed(c) <==> c.spineNotNeutral)
  {
  }

  lemma ReportedStance(c: Checks)
    ensures (StanceTooNarrow in Listed(c) <==> c.stanceTooNarrow) && (StanceTooWide in Listed(c) <==> c.stanceTooWide)
  {
  }

  /** `analyzeSquat(keypoints, previousState)`; the previous state is not consulted. */
  function Analyze(o: Oracle, kps: seq<Keypoint>, previous: Option<AnalyzerState>): (r: Analysis)
    requires Sound(o) && IsFrame(kps)
    ensures Consistent(r)
    ensures PoseQuality(kps) < QualityThreshold <==> IsGated(r, PoseQuality(kps))
    ensures PoseQuality(kps) >= QualityThreshold ==>
      && r.confidence == PoseQuality(kps)
      && (r.phase == Some(Squatting) <==> AvgKneeAngle(o, kps) < SquatKneeAngle)
      && (r.phase == Some(Standing) <==> AvgKneeAngle(o, kps) >= SquatKneeAngle)
      && r.state == Some(SquatState(HipMid(kps), KneeMid(kps), ShoulderMid(kps)))
      && (SlightlyShallow in r.mistakes <==>
            r.phase == Some(Squatting) && KneeMid(kps).y < HipMid(kps).y <= KneeMid(kps).y + DepthMargin)
      && (TooShallow in r.mistakes <==>
            r.phase == Some(Squatting) && HipMid(kps).y > KneeMid(kps).y + DepthMargin)
      && (SpineNotNeutral in r.mistakes <==> SpineAngle(o, kps) < 160.0)
    ensures !(StanceTooNarrow in r.mistakes && StanceTooWide in r.mistakes)
  {
    var quality := PoseQuality(kps);
    if quality < QualityThreshold then
      Gated(quality)
    else
      var c := Check(o, kps);
      Reported(c);
      var state := SquatState(HipMid(kps), KneeMid(kps), ShoulderMid(kps));
      Graded(Listed(c), PhaseOf(AvgKneeAngle(o, kps)), quality, state)
  }
}

=== FILE: text.dfy ===
/** The few JavaScript string operations the model relies on, over `seq<char>`. */
module Text {

  // ---------------------------------------------------------------------------
  // String.prototype.toLowerCase, for the ASCII letters
  // ---------------------------------------------------------------------------

  function LowerChar(c: char): (d: char)
    ensures 'A' <= c <= 'Z' ==> 'a' <= d <= 'z' && d as int == c as int + 32
    ensures !('A' <= c <= 'Z') ==> d == c
  {
    if 'A' <= c <= 'Z' then (c as int + 32) as char else c
  }

  function Lower(s: string): (r: string)
    ensures |r| == |s|
    ensures forall i :: 0 <= i < |s| ==> r[i] == LowerChar(s[i])
  {
    if s == [] then [] else [LowerChar(s[0])] + Lower(s[1..])
  }

  /** Lower-casing twice is lower-casing once. */
  lemma LowerIdempotent(s: string)
    ensures Lower(Lower(s)) == Lower(s)
  {
    forall i | 0 <= i < |s|
      ensures Lower(Lower(s))[i] == Lower(s)[i]
    {
      assert LowerChar(LowerChar(s[i])) == LowerChar(s[i]);
    }
  }

  // ---------------------------------------------------------------------------
  // String.prototype.includes
  // ---------------------------------------------------------------------------

  /** `t` occurs in `s` starting at index `i`. */
  ghost predicate OccursAt(s: string, t: string, i: int) {
    0 <= i && i + |t| <= |s| && s[i..i + |t|] == t
  }

  /** `s.includes(t)`, computed by scanning `s` from the left. */
  function Contains(s: string, t: string): bool
    decreases |s|
  {
    if |t| > |s| then false
    else if s[..|t|] == t then true
    else Contains(s[1..], t)
  }

  /** The scan finds `t` exactly when `t` occurs somewhere in `s`. */
  lemma {:induction false} ContainsIffOccurs(s: string, t: string)
    ensures Contains(s, t) <==> exists i :: OccursAt(s, t, i)
    decreases |s|
  {
    if |t| > |s| {
      assert forall i :: !OccursAt(s, t, i);
    } else if s[..|t|] == t {
      assert OccursAt(s, t, 0);
    } else {
      ContainsIffOccurs(s[1..], t);
      if Contains(s[1..], t) {
        var i :| OccursAt(s[1..], t, i);
        assert s[1..][i..i + |t|] == s[i + 1..i + 1 + |t|];
        assert OccursAt(s, t, i + 1);
      } else {
        forall i | OccursAt(s, t, i)
          ensures i >= 1 && OccursAt(s[1..], t, i - 1)
        {
          assert s[0..|t|] == s[..|t|];
          if i >= 1 {
            assert s[1..][i - 1..i - 1 + |t|] == s[i..i + |t|];
          }
        }
      }
    }
  }

  /** Whatever contains a longer string contains every piece of it. */
  lemma ContainsInfix(s: string, t: string, u: string, k: int)
    requires 0 <= k && k + |u| <= |t|
    requires t[k..k + |u|] == u
    requires Contains(s, t)
    ensures Contains(s, u)
  {
    ContainsIffOccurs(s, t);
    var i :| OccursAt(s, t, i);
    forall j | 0 <= j < |u|
      ensures s[i + k + j] == u[j]
    {
      assert s[i..i + |t|][k + j] == s[i + k + j];
      assert t[k..k + |u|][j] == t[k + j];
    }
    assert s[i + k..i + k + |u|] == u;
    assert OccursAt(s, u, i + k);
    ContainsIffOccurs(s, u);
  }

  // ---------------------------------------------------------------------------
  // Number.prototype.toString() for integers, and its inverse
  // ---------------------------------------------------------------------------

  predicate IsDigit(c: char) {
    '0' <= c <= '9'
  }

  predicate AllDigits(s: string) {
    forall i :: 0 <= i < |s| ==> IsDigit(s[i])
  }

  function DigitChar(d: nat): (c: char)
    requires d < 10
    ensures IsDigit(c)
  {
    ('0' as int + d) as char
  }

  function DigitValue(c: char): (d: nat)
    requires IsDigit(c)
    ensures d < 10
  {
    c as int - '0' as int
  }

  /** Decimal digits of `n` with no leading zero. */
  function NatToString(n: nat): (s: string)
    ensures 1 <= |s|
    ensures AllDigits(s)
    ensures |s| > 1 ==> s[0] != '0'
    decreases n
  {
    if n < 10 then [DigitChar(n)] else NatToString(n / 10) + [DigitChar(n % 10)]
  }

  /** Reads a string of decimal digits; the partner of `NatToString`. */
  function ParseNat(s: string): nat
    requires AllDigits(s)
  {
    if s == [] then 0 else ParseNat(s[..|s| - 1]) * 10 + DigitValue(s[|s| - 1])
  }

  lemma {:induction false} ParseNatToString(n: nat)
    ensures ParseNat(NatToString(n)) == n
    decreases n
  {
    if n >= 10 {
      var s := NatToString(n);
      assert s[..|s| - 1] == NatToString(n / 10);
      ParseNatToString(n / 10);
    }
  }

  /** Leading zeros do not change the value read. */
  lemma {:induction false} ParseNatLeadingZero(s: string)
    requires AllDigits(s)
    ensures AllDigits("0" + s)
    ensures ParseNat("0" + s) == ParseNat(s)
    decreases |s|
  {
    assert forall i :: 1 <= i < |s| + 1 ==> ("0" + s)[i] == s[i - 1];
    if s != [] {
      var t := "0" + s;
      assert t[..|t| - 1] == "0" + s[..|s| - 1];
      ParseNatLeadingZero(s[..|s| - 1]);
    }
  }

  /** `n.toString()` for any integer `n`. */
  function IntToString(n: int): (s: string)
    ensures n >= 0 ==> s == NatToString(n)
    ensures n < 0 ==> s == "-" + NatToString(-n)
  {
    if n >= 0 then NatToString(n) else "-" + NatToString(-n)
  }

  /** `s.padStart(width, '0')`. */
  function PadZeros(s: string, width: nat): (r: string)
    ensures |r| == if |s| >= width then |s| else width
    ensures |s| >= width ==> r == s
    ensures r[|r| - |s|..] == s
    ensures forall i :: 0 <= i < |r| - |s| ==> r[i] == '0'
    decreases width
  {
    if |s| >= width then s else "0" + PadZeros(s, width - 1)
  }

  // ---------------------------------------------------------------------------
  // String.prototype.trim
  // ---------------------------------------------------------------------------

  /** The white-space and line-terminator characters `trim` removes (ECMA-262 WhiteSpace and
      LineTerminator, Unicode category Zs written out). */
  predicate IsWhitespace(c: char) {
    || c == ' ' || c == '\t' || c == '\n' || c == '\r' || c == '\U{000B}' || c == '\U{000C}'
    || c == '\U{00A0}' || c == '\U{1680}' || ('\U{2000}' <= c <= '\U{200A}')
    || c == '\U{2028}' || c == '\U{2029}' || c == '\U{202F}' || c == '\U{205F}'
    || c == '\U{3000}' || c == '\U{FEFF}'
  }

  function TrimStart(s: string): (r: string)
    ensures r == [] || !IsWhitespace(r[0])
    ensures |r| <= |s| && r == s[|s| - |r|..]
    ensures forall i :: 0 <= i < |s| - |r| ==> IsWhitespace(s[i])
  {
    if s != [] && IsWhitespace(s[0]) then TrimStart(s[1..]) else s
  }

  function TrimEnd(s: string): (r: string)
    ensures r == [] || !IsWhitespace(r[|r| - 1])
    ensures |r| <= |s| && r == s[..|r|]
    ensures forall i :: |r| <= i < |s| ==> IsWhitespace(s[i])
  {
    if s != [] && IsWhitespace(s[|s| - 1]) then TrimEnd(s[..|s| - 1]) else s
  }

  function Trim(s: string): string {
    TrimEnd(TrimStart(s))
  }

  /** Trimming leaves something exactly when the string holds a non-white-space character. */
  lemma TrimNonEmptyIff(s: string)
    ensures |Trim(s)| >= 1 <==> exists i :: 0 <= i < |s| && !IsWhitespace(s[i])
  {
    var a := TrimStart(s);
    var b := TrimEnd(a);
    if |b| >= 1 {
      assert b[0] == a[0] == s[|s| - |a|];
    } else {
      forall i | 0 <= i < |s|
        ensures IsWhitespace(s[i])
      {
        if i >= |s| - |a| {
          assert s[i] == a[i - (|s| - |a|)];
        }
      }
    }
  }
}

=== FILE: workouts.dfy ===
/** The server-side derivations of backend/models/Workout.js: the totals and the duration the
    `pre('save')` hook fills in, and the muscle groups `getStats` lists. */
module Workouts {
  import opened Wrappers

  /** Milliseconds since the epoch, as a JavaScript `Date` subtracts. */
  type Time = int

  /** The muscles an exercise document lists, when the reference has been populated; either list
      may be missing. */
  datatype Muscles = Muscles(primary: Option<seq<string>>, secondary: Option<seq<string>>)

  /** The primary muscles of a (possibly missing) exercise document, none when it lists none. */
  function PrimaryOf(ex: Option<Muscles>): seq<string> {
    match ex
    case Some(Muscles(Some(p), _)) => p
    case _ => []
  }

  /** The secondary muscles of a (possibly missing) exercise document. */
  function SecondaryOf(ex: Option<Muscles>): seq<string> {
    match ex
    case Some(Muscles(_, Some(s))) => s
    case _ => []
  }

  /** The fields of a logged set the derivations read: reps, the weight's value and whether the
      set was completed. */
  datatype SetLog = SetLog(reps: int, weight: real, isCompleted: bool)

  /** One exercise of a workout: the referenced exercise (`None` when it is not populated or no
      longer exists) and its sets. */
  datatype ExerciseLog = ExerciseLog(exercise: Option<Muscles>, sets: seq<SetLog>)

  datatype Totals = Totals(sets: int, reps: int, volume: real)

  const Zero := Totals(0, 0, 0.0)

  /** The fields of a workout document the hook reads or writes. */
  datatype Workout = Workout(
    exercises: seq<ExerciseLog>, startTime: Time, endTime: Option<Time>, duration: Option<int>,
    totals: Totals)

  // ---------------------------------------------------------------------------
  // Totals
  // ---------------------------------------------------------------------------

  /** One set's share of the totals: one set, its reps and weight times reps when it is
      completed, nothing otherwise. */
  function Share(s: SetLog): Totals {
    if s.isCompleted then Totals(1, s.reps, s.weight * s.reps as real) else Zero
  }

  function Plus(a: Totals, b: Totals): Totals {
    Totals(a.sets + b.sets, a.reps + b.reps, a.volume + b.volume)
  }

  /** The inner loop of the hook, over one exercise's sets in order. */
  function TallySets(sets: seq<SetLog>): Totals
    decreases |sets|
  {
    if sets == [] then Zero else Plus(TallySets(sets[..|sets| - 1]), Share(sets[|sets| - 1]))
  }

  /** The outer loop of the hook, over the exercises in order. */
  function Tally(logs: seq<ExerciseLog>): Totals
    decreases |logs|
  {
    if logs == [] then Zero else Plus(Tally(logs[..|logs| - 1]), TallySets(logs[|logs| - 1].sets))
  }

  /** Every completed set of the workout, exercise after exercise. */
  function CompletedSets(logs: seq<ExerciseLog>): (r: seq<SetLog>)
    ensures forall s :: s in r ==> s.isCompleted
    decreases |logs|
  {
    if logs == [] then [] else CompletedSets(logs[..|logs| - 1]) + Completed(logs[|logs| - 1].sets)
  }

  function Completed(sets: seq<SetLog>): (r: seq<SetLog>)
    ensures forall s :: s in r ==> s.isCompleted && s in sets
    ensures |r| <= |sets|
    decreases |sets|
  {
    if sets == [] then []
    else Completed(sets[..|sets| - 1]) + if sets[|sets| - 1].isCompleted then [sets[|sets| - 1]] else []
  }

  function SumReps(sets: seq<SetLog>): int
    decreases |sets|
  {
    if sets == [] then 0 else SumReps(sets[..|sets| - 1]) + sets[|sets| - 1].reps
  }

  function SumVolume(sets: seq<SetLog>): real
    decreases |sets|
  {
    if sets == [] then 0.0 else SumVolume(sets[..|sets| - 1]) + sets[|sets| - 1].weight * sets[|sets| - 1].reps as real
  }

  /** The plain sums over a run of sets, as totals. */
  function Sums(sets: seq<SetLog>): Totals {
    Totals(|sets|, SumReps(sets), SumVolume(sets))
  }

  lemma {:induction false} SumsAppend(a: seq<SetLog>, b: seq<SetLog>)
    ensures Sums(a + b) == Plus(Sums(a), Sums(b))
    decreases |b|
  {
    if b == [] {
      assert a + b == a;
    } else {
      assert (a + b)[..|a + b| - 1] == a + b[..|b| - 1];
      SumsAppend(a, b[..|b| - 1]);
    }
  }

  lemma {:induction false} TallySetsCompleted(sets: seq<SetLog>)
    ensures TallySets(sets) == Sums(Completed(sets))
    decreases |sets|
  {
    if sets != [] {
      var last := sets[|sets| - 1];
      TallySetsCompleted(sets[..|sets| - 1]);
      SumsAppend(Completed(sets[..|sets| - 1]), if last.isCompleted then [last] else []);
    }
  }

  /** The hook's nested loop with its `isCompleted` test is the plain count and sums over the
      completed sets: `totalSets` counts them, `totalReps` adds their reps and `totalVolume`
      their weight times reps. */
  lemma {:induction false} TallyIsSumOverCompleted(logs: seq<ExerciseLog>)
    ensures Tally(logs) == Sums(CompletedSets(logs))
    ensures Tally(logs).sets == |CompletedSets(logs)|
    decreases |logs|
  {
    if logs != [] {
      var last := logs[|logs| - 1];
      TallyIsSumOverCompleted(logs[..|logs| - 1]);
      TallySetsCompleted(last.sets);
      SumsAppend(CompletedSets(logs[..|logs| - 1]), Completed(last.sets));
    }
  }

  /** Each exercise with its unfinished sets dropped. */
  function KeepCompleted(logs: seq<ExerciseLog>): (r: seq<ExerciseLog>)
    ensures |r| == |logs|
    ensures forall i :: 0 <= i < |logs| ==> r[i] == logs[i].(sets := Completed(logs[i].sets))
    decreases |logs|
  {
    if logs == [] then []
    else
      var last := logs[|logs| - 1];
      KeepCompleted(logs[..|logs| - 1]) + [last.(sets := Completed(last.sets))]
  }

  lemma {:induction false} CompletedIdempotent(sets: seq<SetLog>)
    ensures Completed(Completed(sets)) == Completed(sets)
    decreases |sets|
  {
    if sets != [] {
      var init := sets[..|sets| - 1];
      var last := sets[|sets| - 1];
      CompletedIdempotent(init);
      if last.isCompleted {
        var r := Completed(init) + [last];
        assert r[..|r| - 1] == Completed(init);
      } else {
        assert Completed(sets) == Completed(init);
      }
    }
  }

  /** Unfinished sets contribute nothing: dropping them leaves every total as it was. */
  lemma {:induction false} UnfinishedSetsIgnored(logs: seq<ExerciseLog>)
    ensures Tally(KeepCompleted(logs)) == Tally(logs)
    decreases |logs|
  {
    if logs != [] {
      var init := logs[..|logs| - 1];
      var last := logs[|logs| - 1];
      var k := KeepCompleted(logs);
      assert k[..|k| - 1] == KeepCompleted(init);
      UnfinishedSetsIgnored(init);
      TallySetsCompleted(last.sets);
      TallySetsCompleted(Completed(last.sets));
      CompletedIdempotent(last.sets);
    }
  }

  // ---------------------------------------------------------------------------
  // The save hook
  // ---------------------------------------------------------------------------

  /** The duration in whole minutes, as `Math.round` of the elapsed milliseconds over 60000: the
      nearest whole minute, a half minute rounding up. */
  function Minutes(start: Time, end: Time): (d: int)
    ensures d as real * 60000.0 - 30000.0 <= (end - start) as real < d as real * 60000.0 + 30000.0
    ensures end >= start ==> d >= 0
  {
    Round((end - start) as real / 60000.0)
  }

  /** The `pre('save')` hook: the totals are recomputed only when the exercises were modified,
      and the duration only when there is an end time (the start time is required). */
  function PreSave(w: Workout, exercisesModified: bool): (r: Workout)
    ensures r.exercises == w.exercises && r.startTime == w.startTime && r.endTime == w.endTime
    ensures exercisesModified ==> r.totals == Tally(w.exercises)
    ensures exercisesModified ==> r.totals.sets == |CompletedSets(w.exercises)|
    ensures !exercisesModified ==> r.totals == w.totals
    ensures w.endTime.Some? ==> r.duration == Some(Minutes(w.startTime, w.endTime.value))
    ensures w.endTime.None? ==> r.duration == w.duration
  {
    TallyIsSumOverCompleted(w.exercises);
    var totals := if exercisesModified then Tally(w.exercises) else w.totals;
    var duration := if w.endTime.Some? then Some(Minutes(w.startTime, w.endTime.value)) else w.duration;
    w.(totals := totals, duration := duration)
  }

  /** Saving twice changes nothing more than saving once. */
  lemma PreSaveIdempotent(w: Workout, exercisesModified: bool)
    ensures PreSave(PreSave(w, exercisesModified), exercisesModified) == PreSave(w, exercisesModified)
  {
  }

  // ---------------------------------------------------------------------------
  // getStats
  // ---------------------------------------------------------------------------

  predicate NoDuplicates(s: seq<string>) {
    forall i, j :: 0 <= i < j < |s| ==> s[i] != s[j]
  }

  /** `Set.prototype.add` for each item in turn, on a set kept in insertion order. */
  function AddAll(acc: seq<string>, items: seq<string>): (r: seq<string>)
    requires NoDuplicates(acc)
    ensures NoDuplicates(r)
    ensures forall m :: m in r <==> m in acc || m in items
    ensures |acc| <= |r| && r[..|acc|] == acc
    decreases |items|
  {
    if items == [] then acc
    else if items[0] in acc then AddAll(acc, items[1..])
    else
      var next := acc + [items[0]];
      assert next[..|acc|] == acc;
      AddAll(next, items[1..])
  }

  /** The muscle groups of the exercises from the first `n`, in first-seen order. */
  function Collect(logs: seq<ExerciseLog>, n: nat): (r: seq<string>)
    requires n <= |logs|
    ensures NoDuplicates(r)
    ensures forall m :: m in r <==> exists i :: 0 <= i < n && m in PrimaryOf(logs[i].exercise)
    decreases n
  {
    if n == 0 then []
    else
      var before := Collect(logs, n - 1);
      AddAll(before, PrimaryOf(logs[n - 1].exercise))
  }

  /** `getStats().muscleGroups`: each primary muscle of a populated exercise once, in the order
      first met; nothing when the references are not populated. */
  function MuscleGroups(logs: seq<ExerciseLog>, populated: bool): (r: seq<string>)
    ensures NoDuplicates(r)
    ensures forall m :: m in r <==> populated && exists i :: 0 <= i < |logs| && m in PrimaryOf(logs[i].exercise)
  {
    if populated then Collect(logs, |logs|) else []
  }

  /** Adding an exercise keeps the muscle groups already listed, in their order, at the front. */
  lemma MuscleGroupsGrow(logs: seq<ExerciseLog>, ex: ExerciseLog)
    ensures var before := MuscleGroups(logs, true);
      var after := MuscleGroups(logs + [ex], true);
      |before| <= |after| && after[..|before|] == before
  {
    var all := logs + [ex];
    assert all[..|logs|] == logs;
    CollectPrefix(all, logs, |logs|);
    CollectLast(all);
  }

  /** The last exercise's muscles are added after those of the exercises before it. */
  lemma CollectLast(all: seq<ExerciseLog>)
    requires all != []
    ensures var before := Collect(all, |all| - 1);
      |before| <= |Collect(all, |all|)| && Collect(all, |all|)[..|before|] == before
  {
  }

  lemma {:induction false} CollectPrefix(all: seq<ExerciseLog>, logs: seq<ExerciseLog>, n: nat)
    requires n <= |logs| <= |all| && logs == all[..|logs|]
    ensures Collect(all, n) == Collect(logs, n)
    decreases n
  {
    if n > 0 {
      CollectPrefix(all, logs, n - 1);
      assert all[n - 1] == logs[n - 1];
    }
  }
}

=== FILE: wrappers.dfy ===
/** Failure-carrying values shared by every module of the model. */
module Wrappers {

  /** A JavaScript value that may be `null` / `undefined`. */
  datatype Option<+T> = None | Some(value: T) {
    function GetOr(default: T): T {
      match this
      case Some(v) => v
      case None => default
    }
  }

  /** The outcome of an operation that the source lets throw a `TypeError`. */
  datatype Result<+T> = Ok(value: T) | Err(error: string)

  function Max(a: int, b: int): (m: int)
    ensures m >= a && m >= b
    ensures m == a || m == b
  {
    if a >= b then a else b
  }

  function AbsReal(x: real): (r: real)
    ensures r >= 0.0
    ensures r == x || r == -x
  {
    if x < 0.0 then -x else x
  }

  /** `Math.round`: halves round towards positive infinity. */
  function Round(x: real): (n: int)
    ensures x - 0.5 < n as real <= x + 0.5
  {
    (x + 0.5).Floor
  }

  /** The remainder of JavaScript's `%` on integers: it takes the sign of the dividend. */
  function JsRem(a: int, b: int): (r: int)
    requires b > 0
    ensures a >= 0 ==> 0 <= r < b && r == a % b
    ensures a < 0 ==> -b < r <= 0 && r == -((-a) % b)
  {
    if a >= 0 then a % b else -((-a) % b)
  }
}
